=== FILE: README.md ===
# OOXML document-property editor

A Dafny model of the document-property editor of a metadata-cleaning web
service. A `.docx` or `.xlsx` file is a ZIP package. It keeps its
document properties in three XML parts:

- `docProps/core.xml`, the core properties;
- `docProps/app.xml`, the extended (application) properties;
- `docProps/custom.xml`, the custom properties.

The editor does two things:

- **Read.** It reads every property into one dict. A key is `core:<tag>`,
  `app:<tag>` or `custom:<name>`.
- **Delete.** It rewrites the package so that the listed keys vanish. Every
  other entry is copied through, and the file is replaced only once the
  new package is complete.

Three copies of this logic exist. They read and delete alike and differ
only in the extension guard:

- `OfficeMetadataHelper`, which refuses any extension other than `.docx`
  and `.xlsx`;
- `DocxMetadataHelper`, which has no such guard;
- the functions of `test/test_docx.py`, also without the guard.

The model covers both variants (`Facade.DeleteGuarded` and
`Facade.DeleteUnguarded`).

Around the editor, the model covers the small rules of the web layer:

- which keys a file offers for selective deletion (`Selection`);
- how uploads are named on disk and on download (`FileNames`);
- the whole-file DOCX clean, which is meant to drop the three property parts
  but, with its skip list as written, keeps the custom part (`WholeFileClean`);
- the batch-clean endpoint that dispatches each upload by extension
  (`BatchClean`).

## Modules

| file | module | what it holds |
|---|---|---|
| `outcomes.dfy` | `Outcomes` | `Option`, `Result` and the error cases: unsupported extension, missing file, not a ZIP, unparsable part, nested-property removal, external-tool failure |
| `strings.dfy` | `Strings` | prefix test, last/first occurrence splits, ASCII lower-casing |
| `pypath.dfy` | `PyPath` | `os.path.splitext`, the lower-cased extension, `os.path.join` |
| `xml.dfy` | `Octets`, `Xml` | bytes; ElementTree elements with `{uri}local` tags, document-order descendant search, and the parser/serializer pair as a codec value with its law |
| `collect.dfy` | `KeyValues` | building a dict from assignments (the last one wins), and dropping keys |
| `parts.dfy` | `Parts` | the three parts, their entry names, key prefixes |
| `core_app_properties.dfy` | `CoreAppProperties` | reading and deleting the direct children of a core/app root |
| `custom_properties.dfy` | `CustomProperties` | reading and deleting `property` elements of a custom root |
| `property_codec.dfy` | `PropertyCodec` | the per-part read and delete |
| `archive.dfy` | `Archive` | packages as entry sequences; `ZipFile.read` |
| `facade.dfy` | `Facade` | `get_metadata`, the delete loop, the guarded and unguarded `delete_metadata` |
| `facade_properties.dfy` | `FacadeProperties` | package- and file-level properties of read and delete |
| `selection.dfy` | `Selection` | the extension groups and the selectable-key filters |
| `file_names.dfy` | `FileNames` | stored and download names |
| `whole_file_clean.dfy` | `WholeFileClean` | the copy that skips the property parts |
| `batch_clean.dfy` | `BatchClean` | dispatch and per-file reports of the batch endpoint |

The XML parser and serializer are not modelled byte by byte. Each
operation takes an `XmlCodec`: a `parse` that may fail and a `serialize`.
Properties that re-read what was written assume the codec is `Lawful`:

- what `parse` returns is `Canonical`: every tag and attribute name is a
  plain `local` or a `{uri}local` whose local part is an XML name without a
  colon, text and attribute values hold only characters XML allows, no
  attribute is a namespace declaration, and no text node is empty;
- serializing a canonical tree and parsing it again gives the same tree.

Every tree ElementTree's parser builds is canonical, and so is every tree
the editor makes from one by dropping children. Trees outside this set,
such as a tag `"a b"` or a text holding `\0`, are not claimed to survive:
ElementTree writes them out as they are and cannot read the result back.
Among canonical trees, ElementTree meets the second half except on one kind
of text. It writes a carriage return in text as it is, and its parser reads
it back as a line feed, so a text holding `\r` (parsed from `&#13;`) comes
back changed. The properties that rely on the law are listed under
"## Left out".

## Model

| member | source | states |
|---|---|---|
| Xml.LocalName | OfficeMetadataHelper.py:37 | the local name is the part of the tag after its last `}`; it holds no `}` and is the whole tag when there is none |
| Strings.Lower | OfficeMetadataHelper.py:51 | lower-casing keeps the length and lowers each character on its own |
| PyPath.SplitExt | OfficeMetadataHelper.py:51 | stem and extension concatenate back to the path; the extension is non-empty exactly when the last path component has a dot, with no dot or slash after it and some non-dot character before it in that component, and it then starts at that dot |
| PyPath.SplitExtDetermined | OfficeMetadataHelper.py:51 | any split of a path into a stem and an extension placed as that rule says is the one `os.path.splitext` gives, so the rule has one answer |
| PyPath.Extension | app.py:248-249 | the lower-cased extension is empty exactly when the path has no extension, and otherwise is the path's tail from the extension's dot, each character lower-cased |
| PyPath.Join | app.py:466 | a name with a leading slash replaces the directory; otherwise the name follows a directory not ending in `/` after one slash, and directly follows an empty directory or one ending in `/` |
| PyPath.JoinBaseName | app.py:466 | a name without a slash is the last component of the joined path, whatever the directory, so the stored path names the upload's own file |
| PyPath.SplitExtOfTagged | app.py:134-138 | a stem tagged with `_<token>` and followed by an extension splits back into the tagged stem and that extension |
| Parts.PartOfPath | OfficeMetadataHelper.py:64-68 | an entry name is recognised as a part exactly when it is that part's path, and no other name is |
| Parts.PartOfPathInverse | OfficeMetadataHelper.py:8-12 | each part's path is recognised as that part, so the path table is one-to-one |
| Parts.KeyPrefixes | OfficeMetadataHelper.py:38 | a key starts with its own part's prefix and with no other part's prefix |
| Parts.KeysOfDistinctPartsDiffer | OfficeMetadataHelper.py:46 | keys of two different parts never coincide, so no part overwrites another's keys in the shared dict |
| Archive.Lookup | OfficeMetadataHelper.py:28-31 | reading a name fails exactly when no entry has it; otherwise it gives the bytes of the last entry of that name |
| Archive.LookupUnique | OfficeMetadataHelper.py:62 | in a package without repeated names, reading an entry's name gives that entry's own bytes |
| Archive.LookupParallel | OfficeMetadataHelper.py:86 | a package written name for name like another, with `data` under every copy of a name, reads `data` for that name exactly when the original holds it |
| KeyValues.Collect | OfficeMetadataHelper.py:38 | the dict holds exactly the assigned keys, each with the value of its last assignment, and every entry is one of the assignments |
| KeyValues.CollectWithout | OfficeMetadataHelper.py:75-76 | dropping the assignments to the listed keys before building the dict is deleting those keys from the dict |
| KeyValues.WithoutTwice | OfficeMetadataHelper.py:72-76 | dropping the listed keys a second time changes nothing |
| CoreAppProperties.Read | OfficeMetadataHelper.py:35-38 | `<part>:<local>` is a key exactly when some direct child has that local name, and its value is the text (or `''`) of the last such child |
| CoreAppProperties.Delete | test/test_docx.py:76-84 | the root keeps its tag, attributes and text, and keeps exactly those children whose key is not listed, in their relative order: cut the children anywhere and the kept children of the front come before those of the back |
| CoreAppProperties.ChildPairsKeep | DocxHelper.py:80-86 | the key/value pairs of the kept children are the original pairs without the listed keys, in order |
| CoreAppProperties.ReadAfterDelete | OfficeMetadataHelper.py:71-77 | reading a core/app part after the delete gives the earlier read minus the listed keys |
| CoreAppProperties.DeleteIdempotent | OfficeMetadataHelper.py:71-77 | deleting the same keys twice is deleting them once |
| CoreAppProperties.DeleteAbsentKeys | OfficeMetadataHelper.py:71-77 | when no listed key is present the root comes back unchanged |
| CustomProperties.FirstTypedValue | OfficeMetadataHelper.py:42-45 | the value is `''` without a typed child, and otherwise the text (or `''`) of the first typed child |
| CustomProperties.PropertyPairs | OfficeMetadataHelper.py:40-46 | the pairs are exactly the (key, value) of the `property` elements among the descendants |
| CustomProperties.Read | OfficeMetadataHelper.py:39-46 | `custom:<name>` is a key exactly when some descendant `property` has it, and its value is that of the last such property in document order |
| CustomProperties.PropertyPairsLastWins | DocxHelper.py:44-50 | the last property with a given key decides that key's value in the dict |
| CustomProperties.KeepUnlisted | OfficeMetadataHelper.py:79-83 | the kept children are exactly the children that are not a listed property, and there are no more of them than children |
| CustomProperties.KeepUnlistedAppend | OfficeMetadataHelper.py:79-83 | filtering a concatenation filters each half, so the kept children keep their order and none is repeated |
| CustomProperties.Delete | DocxHelper.py:87-93 | removal fails with the nested-child error exactly when a listed property sits below the root's children; otherwise the root keeps its tag, attributes and text and exactly its unlisted children, in their relative order: cut the children anywhere and the kept children of the front come before those of the back |
| CustomProperties.ReadAfterDelete | OfficeMetadataHelper.py:78-84 | on a custom part with no property nested in a property, reading after the delete gives the earlier read minus the listed keys |
| CustomProperties.NestedPropertyLeavesWithItsParent | OfficeMetadataHelper.py:79-83 | an unlisted property nested in a listed one is removed with its parent, so read-after-delete needs flat parts |
| CustomProperties.NestedListedPropertyRaises | OfficeMetadataHelper.py:83 | removing a listed property that is not a direct child of the root fails |
| CustomProperties.DeleteIdempotent | OfficeMetadataHelper.py:78-84 | a successful delete repeated with the same keys gives the same root |
| CustomProperties.DeleteAbsentKeys | OfficeMetadataHelper.py:78-84 | when no listed key is present the root comes back unchanged |
| PropertyCodec.PartMetadata | OfficeMetadataHelper.py:35-46 | every key read from a part carries that part's prefix |
| PropertyCodec.DeletePart | OfficeMetadataHelper.py:69-84 | a core/app delete always succeeds; the result keeps the root and only children of the original |
| PropertyCodec.ReadAfterDeletePart | OfficeMetadataHelper.py:69-84 | reading a pruned part gives the earlier read minus the listed keys, for a core or app part and for a custom part with no property nested in a property |
| PropertyCodec.DeletePartIdempotent | OfficeMetadataHelper.py:69-84 | pruning a pruned part again gives the same tree |
| PropertyCodec.DeletePartAbsentKeys | OfficeMetadataHelper.py:69-84 | a part holding none of the listed keys is left as it was |
| PropertyCodec.DeletePartCanonical | OfficeMetadataHelper.py:77 | pruning a canonical tree gives a canonical tree: its names stay `{uri}local` names with XML-name local parts, its text and attribute values stay XML characters, and no empty text appears, so under a lawful codec it survives the serialize-parse round trip |
| Facade.ReadMetadata | OfficeMetadataHelper.py:24-47 | the read succeeds exactly when every present part parses; each part's prefix then selects exactly that part's properties, and every key carries one of the three prefixes |
| Facade.GetMetadata | OfficeMetadataHelper.py:24-47 | a missing file and a file that is not a ZIP package are reported as such; a package reads as its metadata dict |
| Facade.RewriteData | OfficeMetadataHelper.py:62-86 | an entry that is not a property part is copied unchanged |
| Facade.RewritePrefix | test/test_docx.py:67-96 | after `n` passes the loop has written one entry per pass, or stopped with the error of its first failing pass |
| Facade.Rewrite | OfficeMetadataHelper.py:61-86 | the rewrite succeeds exactly when every pass does, stops at the first failing pass, keeps the names in order, writes each entry's rewritten bytes and copies every other entry |
| Facade.DeleteUnguarded | DocxHelper.py:55-97 | a missing file and a non-ZIP file are reported as such; a package is accepted exactly when its rewrite succeeds, and then only the file at `path` changes, keeping its entry names |
| Facade.DeleteGuarded | OfficeMetadataHelper.py:51-53 | an extension other than `.docx`/`.xlsx` is refused before anything else; otherwise the work is the unguarded delete |
| Facade.RewriteInPlace | DocxHelper.py:55-97 | the loop computes the unguarded delete; on success only the file at `path` changes, and it keeps its entry names |
| Facade.DeleteMetadata | OfficeMetadataHelper.py:50-88 | the guard refuses an unsupported extension; the method computes the guarded delete |
| FacadeProperties.LookupAfterRewrite | OfficeMetadataHelper.py:86 | reading a name from the rewritten package gives the rewritten bytes of the entry stored under it, and nothing for a name it never held |
| FacadeProperties.RewriteOkReads | OfficeMetadataHelper.py:69 | a package the delete accepted also reads without error |
| FacadeProperties.ReadPartAfterRewrite | OfficeMetadataHelper.py:69-84 | under a lawful codec and with no property nested in a property of the custom part, each part read from the rewritten package is the original part's read minus the listed keys |
| FacadeProperties.ReadAfterDelete | OfficeMetadataHelper.py:61-86 | the whole metadata read after the delete is the earlier read minus the listed keys |
| FacadeProperties.RewriteDataTwice | OfficeMetadataHelper.py:62-86 | rewriting an entry's rewritten bytes again gives the same bytes |
| FacadeProperties.RewriteAtAgain | OfficeMetadataHelper.py:61-86 | each pass of a second delete over the rewritten package writes back the entry it reads |
| FacadeProperties.DeleteIdempotent | OfficeMetadataHelper.py:61-86 | deleting the same keys from the rewritten package gives the same package again |
| FacadeProperties.OtherEntriesUntouched | OfficeMetadataHelper.py:86 | in a package without repeated names, every entry that is not a property part is written exactly as it was |
| FacadeProperties.DeleteAbsentKeys | OfficeMetadataHelper.py:61-86 | deleting keys the file does not hold succeeds, leaves every part's tree as it was and leaves the read unchanged |
| FacadeProperties.AbsentFromPart | OfficeMetadataHelper.py:35-46 | a key missing from the whole read is missing from every part |
| FacadeProperties.MissingPartReadsEmpty | OfficeMetadataHelper.py:30-31 | a missing part contributes nothing, so no key of the read carries its prefix |
| FacadeProperties.GetAfterDelete | OfficeMetadataHelper.py:50-88 | on a file, reading after a successful guarded delete gives the earlier read minus the listed keys, and no other file changes |
| FacadeProperties.DeleteMetadataIdempotent | OfficeMetadataHelper.py:50-88 | a second guarded delete of the same keys leaves the files as the first left them |
| FacadeProperties.GuardRefusesWhatUnguardedAccepts | DocxHelper.py:64-68 | a ZIP package named `notes.txt` is refused by the guarded delete and rewritten by the unguarded one |
| Selection.Allowed | app.py:118-123 | a key is allowed exactly when `meta.json` lists it for the group, or the group is the image group and the key is an `EXIF:` key of the file |
| Selection.Pick | test/test7.py:47 | the picked dict holds exactly the allowed keys the file has, each with its value |
| Selection.Selectable | app.py:104-125 | the selectable dict is a sub-dict of the metadata, empty for an extension with no group, and otherwise holds exactly the allowed keys |
| Selection.FilterMetadata | test/test7.py:32-47 | an extension with no group gives `{}` before anything is extracted; otherwise the result is the sub-dict of the extracted metadata holding exactly the allowed keys |
| Selection.ExifKeysSelectable | app.py:121-123 | every `EXIF:` key of an image file is selectable, whatever `meta.json` says |
| Selection.ExifOnlyForImages | app.py:119-120 | outside the image group a key is selectable exactly when the file has it and `meta.json` lists it |
| Selection.SelectableIdempotent | app.py:125 | selecting from a selection changes nothing |
| Selection.FilterAgreesWithSelectable | test/test7.py:9-23 | the script's filter and the application's filter agree on every extension outside the office group |
| Selection.OfficeExtensionsShareGroup | test/test7.py:17-19 | `.docx`, `.xlsx` and `.pptx` share the script's office group, and no other extension belongs to it |
| FileNames.StoredExt | app.py:135 | the stored extension is the upload's own extension when it has one and `.bin` when it has none |
| FileNames.StoredName | app.py:134-138 | splitting a stored name gives back the tagged stem and the stored extension, so dispatch sees the upload's own extension |
| FileNames.DownloadNameAsWritten | app.py:523-529 | as written, the download name keeps only the stem's text before its first underscore |
| FileNames.DownloadName | app.py:525-527 | under the corrected rule, which cuts the stem at its last underscore, the name starts with `cleaned_`, and a name whose stem holds no underscore is kept whole after it |
| FileNames.DownloadNameOfStored | app.py:130-144 | under the corrected rule `DownloadName`, a stored upload downloads as `cleaned_` plus its original stem and stored extension |
| FileNames.DownloadRestoresOriginal | app.py:515-531 | under the corrected rule `DownloadName`, an upload with an extension downloads as `cleaned_` followed by its original file name |
| FileNames.StoredExample | app.py:138 | `my_report.docx` with token `0a1b2c3d` is stored as `my_report_0a1b2c3d.docx`, which splits at `.docx` |
| FileNames.FirstUnderscoreTruncates | app.py:526-527 | as written, an upload whose stem holds an underscore downloads under a name cut at that underscore, unlike the corrected rule |
| FileNames.RulesAgreeWithoutUnderscore | app.py:526-527 | on a stem without underscores both naming rules agree |
| WholeFileClean.KeptNames | app.py:171-176 | a name is kept exactly when it is in the package and not in the skip list, and the copy holds no more names than the package |
| WholeFileClean.KeptNamesAppend | app.py:169-177 | filtering a concatenation filters each half, so kept names keep their order and their repeats |
| WholeFileClean.Strip | app.py:169-177 | the copy holds the kept names in order, each with the bytes stored under its name |
| WholeFileClean.StripEntries | test/test5.py:12-23 | the copy loop builds exactly that copy |
| WholeFileClean.LookupAfterStrip | app.py:169-177 | a skipped name is gone from the copy and any other name reads as before |
| WholeFileClean.StripKeepsEntries | test/test5.py:21-23 | without repeated names, every entry of the copy is an entry of the original |
| WholeFileClean.CustomPropertiesSurvive | test/test5.py:14-19 | with the skip list as written, core and app are gone but the custom properties read as before |
| WholeFileClean.IntendedCleanLeavesNoMetadata | app.py:171-175 | skipping the three part paths leaves a package whose read is the empty dict |
| WholeFileClean.CleanDocx | test/test5.py:6-27 | a missing file or a non-ZIP file is reported; otherwise only that file changes, replaced by the copy made with the skip list as written, which keeps the custom part |
| BatchClean.Dispatch | app.py:475-486 | office extensions get the property editor with the requested keys; others get the external tool, stripping everything exactly when the request is `["all"]` |
| BatchClean.CleanOne | app.py:465-503 | the report names the upload; a missing file is reported without change; only the upload's own file may change, and only on success; office files get the guarded delete; any other file gets the external tool with the cleaner `Dispatch` chooses, and the tool's result or error becomes the report |
| BatchClean.DocUploadFails | app.py:475-477 | a `.doc` upload is dispatched to the guarded editor, which refuses it, so it reports an error and no file changes |
| BatchClean.Targets | app.py:465-466 | a path is a target exactly when some request's file id joins to it |
| BatchClean.BatchPrefix | app.py:464-503 | after `n` requests there is one report per request in order, and no file outside the requested paths has changed |
| BatchClean.CleanFiles | app.py:465-503 | the loop produces the batch result: one report per request, and files no request names are untouched |

## Left out

- ZIP bytes are not modelled. A package is its sequence of named entries, and the `ZipInfo` metadata that `writestr(item, …)` carries over is not modelled.
- ElementTree parsing and serialization are abstract. They are the `XmlCodec` parameter and its `Lawful` law, not an XML grammar. Namespaces stay in ElementTree's `{uri}local` tag spelling.
- The temporary file and `shutil.move` are collapsed into one step. A successful delete replaces the file's value in the store; a failing one leaves the store as it was. Leftover temporary files are not modelled.
- The external metadata tool (exiftool) is the `Tool` parameter of the batch endpoint, and its results are not modelled.
- The metadata extraction of the filtering script is a parameter too. The contents of `meta.json` are the `Mapping` parameter.
- `openpyxl`, the FastAPI routes, CORS, periodic cleanup and `create_zip_file` are outside the editor.
- BatchClean.CleanOne: does not model the read-back and `view_metadata` call after a successful batch clean. In the source, a failure there reports an error for a file that was already cleaned; the model reports such a file as cleaned.
- `view_metadata`'s early return for the exact suffixes `.docx` and `.xlsx` is not modelled; `Selection.Selectable` models its general branch.
- The random token of an upload is the `token` parameter, assumed to be eight lower-case hex digits as `uuid4().hex[:8]` gives. File writes and `os.getcwd()` are not modelled.
- The download endpoint's 404 for a missing file is not modelled; only the name it offers is.
- `remove_metadata_docx` writes its copy to `uploads/<file_id>`, which at every call site is the file it read. `WholeFileClean.CleanDocx` models the in-place `clean_docx_metadata`, and both share `WholeFileClean.Strip` and the skip list as written.
- The script's call `clean_docx_metadata(a, b)` at test/test5.py:31 passes two arguments to a one-argument function and would fail. The model uses the function's signature.
- Xml.Canonical: name characters follow the fifth edition of XML 1.0. Expat's name tables may follow an earlier edition, in which case a name using a character only the fifth edition admits is refused when read back. Such names do not occur in the property parts.
- Strings.Lower: lowers ASCII letters only; Python's Unicode lower-casing of other characters is not modelled.
- CustomProperties.ReadAfterDelete: assumes no `property` is nested inside another. Without that, an unlisted nested property disappears with its listed parent (`CustomProperties.NestedPropertyLeavesWithItsParent`).
- PropertyCodec.ReadAfterDeletePart: for a custom part, assumes no `property` is nested inside another (`DeleteReadable`), as `CustomProperties.ReadAfterDelete` does.
- FacadeProperties.ReadPartAfterRewrite: assumes the same flatness of the custom part (`PartReadable`) and a lawful codec; a text holding `\r` comes back from ElementTree as `\n`.
- FacadeProperties.ReadAfterDelete: same flatness assumption on the custom part, and a lawful codec. With ElementTree, a kept property whose text holds `\r` reads back with `\n` instead.
- FacadeProperties.GetAfterDelete: same flatness assumption on the custom part, and a lawful codec. With ElementTree, a kept property whose text holds `\r` reads back with `\n` instead.
- FacadeProperties.RewriteDataTwice: assumes a lawful codec. With ElementTree, a part whose text holds `\r` is written with `\n` on the second pass.
- FacadeProperties.RewriteAtAgain: assumes a lawful codec, with the same `\r` exception.
- FacadeProperties.DeleteIdempotent: assumes a lawful codec. With ElementTree, a second delete of a part whose text holds `\r` changes that text to `\n`.
- FacadeProperties.DeleteMetadataIdempotent: assumes a lawful codec, with the same `\r` exception.
- FacadeProperties.DeleteAbsentKeys: assumes a lawful codec. With ElementTree, a part whose text holds `\r` is read back with `\n`.
- FacadeProperties.OtherEntriesUntouched: assumes entry names are unique. With a repeated name, `zin.read` returns the last copy's bytes for every copy, which `Facade.Rewrite` models.
- BatchClean.CleanFiles: models the loop at app.py:465-503 only. After it, an empty batch raises at `next(iter(files_to_clean))` (app.py:510), and a batch of two or more adds a zip under `uploads/` through `create_zip_file` (app.py:507, 229-246), which raises on a missing file. The model's batch neither fails nor adds that file.
- ElementTree's `tail` text (the character data after an element's end tag) is not modelled, so an element has no `tail` field. `root.remove` drops a removed child's tail along with it. No key or value the editor reads comes from a tail.
- The error messages of Python exceptions are represented by `Error` cases, not by their text.

## Findings

| source | as written | input that shows it | evidently intended | confidence | as-written member | corrected member |
|---|---|---|---|---|---|---|
| app.py:171-175 | the whole-file clean skips `custom.xml` | any `.docx` holding `docProps/custom.xml` with a property keeps that part and its properties | skip `docProps/custom.xml`, the custom part's path | high; not executed | WholeFileClean.CustomPropertiesSurvive | WholeFileClean.IntendedCleanLeavesNoMetadata |
| app.py:526-527 | the download name keeps the stem's text before its first underscore | `my_report.docx`, stored as `my_report_0a1b2c3d.docx`, downloads as `cleaned_my.docx` | drop only the `_<token>` suffix and download as `cleaned_my_report.docx` | high; not executed | FileNames.FirstUnderscoreTruncates | FileNames.DownloadRestoresOriginal |

The same skip list appears at test/test5.py:14-19, and `WholeFileClean.CleanDocx` models it as written. `FileNames.DownloadName`, `FileNames.DownloadNameOfStored` and `FileNames.DownloadRestoresOriginal` are about the corrected naming rule; the rule as written is `FileNames.DownloadNameAsWritten`.

=== FILE: archive.dfy ===
/** A ZIP package as the editor sees it: its entries in central-directory
    order, each a name and the bytes stored under it. */
module Archive {
  import opened Outcomes
  import opened Octets

  datatype Entry = Entry(name: string, data: Bytes)

  type Package = seq<Entry>

  /** No entry after entry `i` shares its name. */
  predicate LastNamed(pkg: Package, i: int)
    requires 0 <= i < |pkg|
  {
    forall j :: i < j < |pkg| ==> pkg[j].name != pkg[i].name
  }

  /** `zf.read(name)`: ZipFile indexes entries by name, so with two entries of
      the same name the later one wins. `None` stands for the `KeyError` raised
      for a name the package does not hold. */
  function Lookup(pkg: Package, name: string): (r: Option<Bytes>)
    ensures r.None? <==> forall i :: 0 <= i < |pkg| ==> pkg[i].name != name
    ensures r.Some? ==> exists i :: 0 <= i < |pkg| && pkg[i] == Entry(name, r.value) && LastNamed(pkg, i)
  {
    if |pkg| == 0 then None
    else if pkg[|pkg| - 1].name == name then Some(pkg[|pkg| - 1].data)
    else Lookup(pkg[..|pkg| - 1], name)
  }

  function Names(pkg: Package): (r: seq<string>)
    ensures |r| == |pkg|
    ensures forall i :: 0 <= i < |pkg| ==> r[i] == pkg[i].name
  {
    seq(|pkg|, i requires 0 <= i < |pkg| => pkg[i].name)
  }

  predicate UniqueNames(pkg: Package) {
    forall i, j :: 0 <= i < j < |pkg| ==> pkg[i].name != pkg[j].name
  }

  /** With no repeated name, reading an entry's name gives that entry's bytes. */
  lemma LookupUnique(pkg: Package, i: int)
    requires UniqueNames(pkg)
    requires 0 <= i < |pkg|
    ensures Lookup(pkg, pkg[i].name) == Some(pkg[i].data)
  {
  }

  /** Two packages with the same names in the same order, where every entry of
      the second named `name` holds `data`: reading `name` from the second
      finds `data` exactly when the first holds `name` at all. */
  lemma {:induction false} LookupParallel(a: Package, b: Package, name: string, data: Bytes)
    requires Names(a) == Names(b)
    requires forall i :: 0 <= i < |b| && b[i].name == name ==> b[i].data == data
    ensures Lookup(b, name) == if Lookup(a, name).Some? then Some(data) else None
  {
    assert |a| == |Names(a)| == |b|;
    if |a| > 0 {
      var n := |a| - 1;
      assert a[n].name == Names(a)[n] == Names(b)[n] == b[n].name;
      if b[n].name != name {
        assert Names(a[..n]) == Names(b[..n]) by {
          forall i | 0 <= i < n ensures Names(a[..n])[i] == Names(b[..n])[i] {
            assert Names(a)[i] == Names(b)[i];
          }
        }
        LookupParallel(a[..n], b[..n], name, data);
      }
    }
  }
}

=== FILE: batch_clean.dfy ===
/** The batch-clean endpoint (version 2): each requested upload is cleaned by
    the tool its extension selects, and every request gets one report. */
module BatchClean {
  import opened Outcomes
  import opened Xml
  import opened PyPath
  import opened Facade

  /** `TEMP_DIR`, where uploads are stored. */
  const TempDir: string := "uploads"

  /** The extensions sent to the office property editor. */
  const OfficeDispatch: set<string> := {".docx", ".doc", ".xlsx"}

  /** How one upload is cleaned. */
  datatype Cleaner =
    /** `remove_metadata_tags_docx` / `remove_metadata_tags_excel`: both call
        the guarded `delete_metadata` with the requested keys. */
    | OfficeTags(tags: seq<string>)
    /** `remove_metadata_exiftool`: strip everything. */
    | StripAll
    /** `remove_metadata_tags_exiftool`: strip the listed tags. */
    | StripTags(tags: seq<string>)

  /** The external metadata tool, applied to the stored file. */
  type Tool = (Cleaner, StoredFile) -> Result<StoredFile, Error>

  /** The per-extension dispatch: office extensions go to the property
      editor with the requested keys; anything else goes to the external
      tool, stripping everything exactly when the request is `["all"]`. */
  function Dispatch(ext: string, tags: seq<string>): (r: Cleaner)
    ensures r.OfficeTags? <==> ext in OfficeDispatch
    ensures r.OfficeTags? || r.StripTags? ==> r.tags == tags
    ensures ext !in OfficeDispatch ==> (r.StripAll? <==> tags == ["all"])
  {
    if ext in OfficeDispatch then OfficeTags(tags)
    else if |tags| == 1 && tags[0] == "all" then StripAll
    else StripTags(tags)
  }

  /** One entry of `cleaned_results`. */
  datatype Report =
    | NotFound(file: string)
    | Cleaned(file: string)
    | Failed(file: string, error: Error)

  /** Cleaning one upload: the files on disk afterwards and the report. Only
      the upload's own file may change, and it changes only on success. */
  function CleanOne(c: XmlCodec, tool: Tool, store: Store, fileId: string, tags: seq<string>): (r: (Store, Report))
    ensures r.1.file == fileId
    ensures Join(TempDir, fileId) !in store ==> r == (store, NotFound(fileId))
    ensures r.0.Keys == store.Keys
    ensures forall q :: q in store && q != Join(TempDir, fileId) ==> r.0[q] == store[q]
    ensures !r.1.Cleaned? ==> r.0 == store
    ensures Join(TempDir, fileId) in store && Extension(Join(TempDir, fileId)) in OfficeDispatch ==>
              var d := DeleteGuarded(c, store, Join(TempDir, fileId), tags);
              r == if d.Ok? then (d.value, Cleaned(fileId)) else (store, Failed(fileId, d.error))
    ensures Join(TempDir, fileId) in store && Extension(Join(TempDir, fileId)) !in OfficeDispatch ==>
              var t := tool(Dispatch(Extension(Join(TempDir, fileId)), tags), store[Join(TempDir, fileId)]);
              r == if t.Ok? then (store[Join(TempDir, fileId) := t.value], Cleaned(fileId)) else (store, Failed(fileId, t.error))
  {
    var path := Join(TempDir, fileId);
    if path !in store then (store, NotFound(fileId))
    else
      var cleaner := Dispatch(Extension(path), tags);
      if cleaner.OfficeTags? then
        GuardedFrame(c, store, path, cleaner.tags);
        match DeleteGuarded(c, store, path, cleaner.tags)
        case Ok(s) => (s, Cleaned(fileId))
        case Err(e) => (store, Failed(fileId, e))
      else
        match tool(cleaner, store[path])
        case Ok(f) => (store[path := f], Cleaned(fileId))
        case Err(e) => (store, Failed(fileId, e))
  }

  /** A successful guarded delete changes only the file it was given. */
  lemma GuardedFrame(c: XmlCodec, store: Store, path: string, fields: seq<string>)
    ensures DeleteGuarded(c, store, path, fields).Ok? ==>
              DeleteGuarded(c, store, path, fields).value.Keys == store.Keys &&
              forall q :: q in store && q != path ==> DeleteGuarded(c, store, path, fields).value[q] == store[q]
  {
    var d := DeleteGuarded(c, store, path, fields);
    if d.Ok? {
      var out := Rewrite(c, store[path].package, fields);
      assert d == Ok(store[path := ZipFile(out.value)]);
    }
  }

  /** A `.doc` upload is sent to the office editor, whose extension guard
      refuses it: the report is an error and no file changes. */
  lemma DocUploadFails(c: XmlCodec, tool: Tool, store: Store, fileId: string, tags: seq<string>)
    requires Join(TempDir, fileId) in store
    requires Extension(Join(TempDir, fileId)) == ".doc"
    ensures CleanOne(c, tool, store, fileId, tags) == (store, Failed(fileId, UnsupportedFileType(".doc")))
  {
    var path := Join(TempDir, fileId);
    DocNotGuarded();
    assert DeleteGuarded(c, store, path, tags) == Err(UnsupportedFileType(".doc"));
  }

  /** `.doc` is dispatched to the office editor, whose guard does not accept it. */
  lemma DocNotGuarded()
    ensures ".doc" in OfficeDispatch && ".doc" !in OfficeExtensions
  {
    assert |".doc"| == 4 && |".docx"| == 5 && |".xlsx"| == 5;
  }

  /** The paths a batch may touch. */
  function Targets(reqs: seq<(string, seq<string>)>): (r: set<string>)
    ensures forall q :: q in r <==> exists i :: 0 <= i < |reqs| && Join(TempDir, reqs[i].0) == q
  {
    set i | 0 <= i < |reqs| :: Join(TempDir, reqs[i].0)
  }

  /** The files after the first `n` requests of a batch, and their reports. */
  function BatchPrefix(c: XmlCodec, tool: Tool, store: Store, reqs: seq<(string, seq<string>)>, n: int): (r: (Store, seq<Report>))
    requires 0 <= n <= |reqs|
    ensures |r.1| == n
    ensures forall i :: 0 <= i < n ==> r.1[i].file == reqs[i].0
    ensures r.0.Keys == store.Keys
    ensures forall q :: q in store && q !in Targets(reqs[..n]) ==> r.0[q] == store[q]
  {
    if n == 0 then (store, [])
    else
      var (s, reports) := BatchPrefix(c, tool, store, reqs, n - 1);
      var (s2, report) := CleanOne(c, tool, s, reqs[n - 1].0, reqs[n - 1].1);
      TargetsStep(reqs, n);
      (s2, reports + [report])
  }

  /** One more request adds its own path to the targets. */
  lemma TargetsStep(reqs: seq<(string, seq<string>)>, n: int)
    requires 0 < n <= |reqs|
    ensures Targets(reqs[..n]) == Targets(reqs[..n - 1]) + {Join(TempDir, reqs[n - 1].0)}
  {
    assert reqs[..n] == reqs[..n - 1] + [reqs[n - 1]];
  }

  /** Request `n` runs on the files the first `n` requests left. */
  lemma BatchStep(c: XmlCodec, tool: Tool, store: Store, reqs: seq<(string, seq<string>)>, n: int)
    requires 0 <= n < |reqs|
    ensures var before := BatchPrefix(c, tool, store, reqs, n);
            var step := CleanOne(c, tool, before.0, reqs[n].0, reqs[n].1);
            BatchPrefix(c, tool, store, reqs, n + 1) == (step.0, before.1 + [step.1])
  {
  }

  /** `clean_files`: the requests in order, one report each, each request
      seeing the files the earlier ones left. Files no request names are
      never touched. */
  method CleanFiles(c: XmlCodec, tool: Tool, store: Store, reqs: seq<(string, seq<string>)>) returns (out: Store, reports: seq<Report>)
    ensures (out, reports) == BatchPrefix(c, tool, store, reqs, |reqs|)
    ensures |reports| == |reqs| && forall i :: 0 <= i < |reqs| ==> reports[i].file == reqs[i].0
    ensures out.Keys == store.Keys
    ensures forall q :: q in store && q !in Targets(reqs) ==> out[q] == store[q]
  {
    out := store;
    reports := [];
    var i := 0;
    while i < |reqs|
      invariant 0 <= i <= |reqs|
      invariant (out, reports) == BatchPrefix(c, tool, store, reqs, i)
    {
      var step := CleanOne(c, tool, out, reqs[i].0, reqs[i].1);
      BatchStep(c, tool, store, reqs, i);
      out, reports := step.0, reports + [step.1];
      i := i + 1;
    }
    assert reqs[..|reqs|] == reqs;
  }
}

=== FILE: collect.dfy ===
/** Building a dict from a sequence of key/value assignments, and dropping the
    assignments to a list of keys before building it. */
module KeyValues {

  /** Whether `k` appears as a key in `ps`. */
  predicate Assigns(ps: seq<(string, string)>, k: string) {
    exists i :: 0 <= i < |ps| && ps[i].0 == k
  }

  /** The last assignment in `ps` to each key is the one `m` holds. */
  predicate LastWins(ps: seq<(string, string)>, m: map<string, string>) {
    forall i :: 0 <= i < |ps| && (forall j :: i < j < |ps| ==> ps[j].0 != ps[i].0) ==>
      ps[i].0 in m && m[ps[i].0] == ps[i].1
  }

  /** Every entry of `m` is one of the assignments in `ps`. */
  predicate FromPairs(ps: seq<(string, string)>, m: map<string, string>) {
    forall k :: k in m ==> exists i :: 0 <= i < |ps| && ps[i] == (k, m[k])
  }

  /** The dict that `d[k] = v` for each pair of `ps` in turn leaves behind,
      starting from an empty dict: a later pair overwrites an earlier one. */
  function Collect(ps: seq<(string, string)>): (m: map<string, string>)
    ensures forall k :: k in m <==> Assigns(ps, k)
    ensures LastWins(ps, m)
    ensures FromPairs(ps, m)
  {
    if |ps| == 0 then map[]
    else
      var rest := Collect(ps[1..]);
      CollectStep(ps, rest);
      map[ps[0].0 := ps[0].1] + rest
  }

  /** One step of `Collect`: putting the first pair under the dict built from
      the others keeps both halves of its contract. */
  lemma CollectStep(ps: seq<(string, string)>, rest: map<string, string>)
    requires |ps| > 0
    requires forall k :: k in rest <==> Assigns(ps[1..], k)
    requires LastWins(ps[1..], rest)
    requires FromPairs(ps[1..], rest)
    ensures forall k :: k in map[ps[0].0 := ps[0].1] + rest <==> Assigns(ps, k)
    ensures LastWins(ps, map[ps[0].0 := ps[0].1] + rest)
    ensures FromPairs(ps, map[ps[0].0 := ps[0].1] + rest)
  {
    var m := map[ps[0].0 := ps[0].1] + rest;
    forall k | k in m ensures exists i :: 0 <= i < |ps| && ps[i] == (k, m[k]) {
      if k in rest {
        var i :| 0 <= i < |ps[1..]| && ps[1..][i] == (k, rest[k]);
        assert ps[i + 1] == (k, m[k]);
      } else {
        assert ps[0] == (k, m[k]);
      }
    }
    forall k ensures k in m <==> Assigns(ps, k) {
      AssignsCons(ps, k);
    }
    forall i | 0 <= i < |ps| && (forall j :: i < j < |ps| ==> ps[j].0 != ps[i].0)
      ensures ps[i].0 in m && m[ps[i].0] == ps[i].1
    {
      if i > 0 {
        LastWinsTail(ps, rest, i);
      }
    }
  }

  lemma AssignsCons(ps: seq<(string, string)>, k: string)
    requires |ps| > 0
    ensures Assigns(ps, k) <==> k == ps[0].0 || Assigns(ps[1..], k)
  {
    if Assigns(ps, k) && k != ps[0].0 {
      var i :| 0 <= i < |ps| && ps[i].0 == k;
      assert ps[1..][i - 1] == ps[i];
    }
    if Assigns(ps[1..], k) {
      var i :| 0 <= i < |ps[1..]| && ps[1..][i].0 == k;
      assert ps[i + 1] == ps[1..][i];
    }
  }

  lemma LastWinsTail(ps: seq<(string, string)>, rest: map<string, string>, i: int)
    requires 0 < i < |ps|
    requires LastWins(ps[1..], rest)
    requires forall j :: i < j < |ps| ==> ps[j].0 != ps[i].0
    ensures ps[i].0 in rest && rest[ps[i].0] == ps[i].1
  {
    var t := ps[1..];
    assert t[i - 1] == ps[i];
    forall j | i - 1 < j < |t| ensures t[j].0 != t[i - 1].0 {
      assert t[j] == ps[j + 1];
    }
  }

  /** `ps` without the pairs whose key is in `ks`, order kept. */
  function Without(ps: seq<(string, string)>, ks: seq<string>): (r: seq<(string, string)>)
    ensures forall x :: x in r <==> x in ps && x.0 !in ks
  {
    if |ps| == 0 then []
    else if ps[0].0 in ks then Without(ps[1..], ks)
    else [ps[0]] + Without(ps[1..], ks)
  }

  function KeySet(ks: seq<string>): set<string> {
    set k | k in ks
  }

  lemma {:induction false} WithoutAppend(a: seq<(string, string)>, b: seq<(string, string)>, ks: seq<string>)
    ensures Without(a + b, ks) == Without(a, ks) + Without(b, ks)
  {
    if |a| == 0 {
      assert a + b == b;
    } else {
      assert (a + b)[0] == a[0];
      assert (a + b)[1..] == a[1..] + b;
      WithoutAppend(a[1..], b, ks);
    }
  }

  /** Dropping the assignments to `ks` before building the dict is the same as
      building it and then deleting the keys `ks`: every other key keeps the
      value its last assignment gave it. */
  lemma {:induction false} CollectWithout(ps: seq<(string, string)>, ks: seq<string>)
    ensures Collect(Without(ps, ks)) == Collect(ps) - KeySet(ks)
  {
    if |ps| > 0 {
      CollectWithout(ps[1..], ks);
      var rest := Collect(ps[1..]);
      assert Collect(ps) == map[ps[0].0 := ps[0].1] + rest;
      if ps[0].0 in ks {
        assert Without(ps, ks) == Without(ps[1..], ks);
        MinusUpdateDropped(ps[0].0, ps[0].1, rest, KeySet(ks));
      } else {
        var w := Without(ps[1..], ks);
        assert Without(ps, ks) == [ps[0]] + w;
        assert ([ps[0]] + w)[0] == ps[0] && ([ps[0]] + w)[1..] == w;
        assert Collect(Without(ps, ks)) == map[ps[0].0 := ps[0].1] + Collect(w);
        MinusUpdateKept(ps[0].0, ps[0].1, rest, KeySet(ks));
      }
    }
  }

  lemma MinusUpdateDropped(k: string, v: string, m: map<string, string>, ks: set<string>)
    requires k in ks
    ensures (map[k := v] + m) - ks == m - ks
  {
  }

  lemma MinusUpdateKept(k: string, v: string, m: map<string, string>, ks: set<string>)
    requires k !in ks
    ensures (map[k := v] + m) - ks == map[k := v] + (m - ks)
  {
  }

  /** When none of `ps`'s keys is in `ks`, dropping them changes nothing. */
  lemma {:induction false} WithoutNothing(ps: seq<(string, string)>, ks: seq<string>)
    requires forall i :: 0 <= i < |ps| ==> ps[i].0 !in ks
    ensures Without(ps, ks) == ps
  {
    if |ps| > 0 {
      WithoutNothing(ps[1..], ks);
    }
  }

  /** Dropping the same keys twice is dropping them once. */
  lemma {:induction false} WithoutTwice(ps: seq<(string, string)>, ks: seq<string>)
    ensures Without(Without(ps, ks), ks) == Without(ps, ks)
  {
    var w := Without(ps, ks);
    forall i | 0 <= i < |w| ensures w[i].0 !in ks {
      assert w[i] in w;
    }
    WithoutNothing(w, ks);
  }
}

=== FILE: core_app_properties.dfy ===
/** Reading and deleting properties of the core and extended (app) parts:
    one property per immediate child of the root, named by its local tag name. */
module CoreAppProperties {
  import opened Xml
  import opened Parts
  import opened KeyValues

  /** `f"{part}:{tag.split('}')[-1]}"`, the key a child of the root stands for. */
  function ChildKey(p: Part, c: Element): string {
    Key(p, LocalName(c.tag))
  }

  /** The assignments the read loop makes, one per child in document order. */
  function ChildPairs(p: Part, cs: seq<Element>): (r: seq<(string, string)>)
    ensures |r| == |cs|
    ensures forall i :: 0 <= i < |cs| ==> r[i] == (ChildKey(p, cs[i]), TextValue(cs[i]))
  {
    if |cs| == 0 then []
    else
      var rest := ChildPairs(p, cs[1..]);
      ConsPairs(p, cs, rest);
      [(ChildKey(p, cs[0]), TextValue(cs[0]))] + rest
  }

  /** Putting the first child's pair in front of the pairs of the others
      gives the pair of every child at its own index. */
  lemma {:induction false} ConsPairs(p: Part, cs: seq<Element>, rest: seq<(string, string)>)
    requires |cs| > 0 && |rest| == |cs| - 1
    requires forall i :: 0 <= i < |rest| ==> rest[i] == (ChildKey(p, cs[i + 1]), TextValue(cs[i + 1]))
    ensures forall i :: 0 <= i < |cs| ==>
              ([(ChildKey(p, cs[0]), TextValue(cs[0]))] + rest)[i] == (ChildKey(p, cs[i]), TextValue(cs[i]))
  {
    forall i | 0 <= i < |cs|
      ensures ([(ChildKey(p, cs[0]), TextValue(cs[0]))] + rest)[i] == (ChildKey(p, cs[i]), TextValue(cs[i]))
    {
      ConsAt((ChildKey(p, cs[0]), TextValue(cs[0])), rest, i);
    }
  }

  lemma ConsAt<T>(x: T, rest: seq<T>, i: int)
    requires 0 <= i <= |rest|
    ensures ([x] + rest)[i] == if i == 0 then x else rest[i - 1]
  {
  }

  /** No later child of `cs` has the key of child `i`. */
  predicate LastWithItsKey(p: Part, cs: seq<Element>, i: int)
    requires 0 <= i < |cs|
  {
    forall j :: i < j < |cs| ==> ChildKey(p, cs[j]) != ChildKey(p, cs[i])
  }

  /** The properties of a core or app part whose document root is `root`: one
      key per child, valued by the text of the last child with that key. */
  function Read(p: Part, root: Element): (m: map<string, string>)
    requires p != Custom
    ensures forall k :: k in m <==>
              exists i :: 0 <= i < |root.children| && ChildKey(p, root.children[i]) == k
    ensures forall i :: 0 <= i < |root.children| && LastWithItsKey(p, root.children, i) ==>
              ChildKey(p, root.children[i]) in m && m[ChildKey(p, root.children[i])] == TextValue(root.children[i])
  {
    ChildPairsSpec(p, root.children);
    Collect(ChildPairs(p, root.children))
  }

  lemma ChildPairsSpec(p: Part, cs: seq<Element>)
    ensures forall k :: k in Collect(ChildPairs(p, cs)) <==>
              exists i :: 0 <= i < |cs| && ChildKey(p, cs[i]) == k
    ensures forall i :: 0 <= i < |cs| && LastWithItsKey(p, cs, i) ==>
              ChildKey(p, cs[i]) in Collect(ChildPairs(p, cs)) &&
              Collect(ChildPairs(p, cs))[ChildKey(p, cs[i])] == TextValue(cs[i])
  {
    forall k ensures k in Collect(ChildPairs(p, cs)) <==> exists i :: 0 <= i < |cs| && ChildKey(p, cs[i]) == k {
      ChildKeyFound(p, cs, k);
    }
    forall i | 0 <= i < |cs| && LastWithItsKey(p, cs, i)
      ensures ChildKey(p, cs[i]) in Collect(ChildPairs(p, cs)) &&
              Collect(ChildPairs(p, cs))[ChildKey(p, cs[i])] == TextValue(cs[i])
    {
      ChildLastWins(p, cs, i);
    }
  }

  /** A key is read exactly when some child has it. */
  lemma ChildKeyFound(p: Part, cs: seq<Element>, k: string)
    ensures k in Collect(ChildPairs(p, cs)) <==> exists i :: 0 <= i < |cs| && ChildKey(p, cs[i]) == k
  {
    var ps := ChildPairs(p, cs);
    if k in Collect(ps) {
      var i :| 0 <= i < |ps| && ps[i].0 == k;
      assert ChildKey(p, cs[i]) == k;
    }
    if exists i :: 0 <= i < |cs| && ChildKey(p, cs[i]) == k {
      var i :| 0 <= i < |cs| && ChildKey(p, cs[i]) == k;
      assert ps[i].0 == k;
    }
  }

  /** The last child with a key gives that key its value. */
  lemma ChildLastWins(p: Part, cs: seq<Element>, i: int)
    requires 0 <= i < |cs| && LastWithItsKey(p, cs, i)
    ensures ChildKey(p, cs[i]) in Collect(ChildPairs(p, cs))
    ensures Collect(ChildPairs(p, cs))[ChildKey(p, cs[i])] == TextValue(cs[i])
  {
    var ps := ChildPairs(p, cs);
    assert forall j :: i < j < |ps| ==> ps[j].0 != ps[i].0;
    assert LastWins(ps, Collect(ps));
  }

  /** The children the delete loop leaves in place: those whose key is not in
      `fields`. */
  function Keep(p: Part, cs: seq<Element>, fields: seq<string>): (r: seq<Element>)
    ensures forall c :: c in r <==> c in cs && ChildKey(p, c) !in fields
    ensures |r| <= |cs|
  {
    if |cs| == 0 then []
    else if ChildKey(p, cs[0]) in fields then Keep(p, cs[1..], fields)
    else [cs[0]] + Keep(p, cs[1..], fields)
  }

  /** `root.remove(child)` for every immediate child whose key is listed. The
      root element itself is never touched. The children that stay keep their
      relative order: cutting the children anywhere, the kept children of the
      front come before those of the back, and a single child stays exactly
      when its key is not listed. */
  function Delete(p: Part, root: Element, fields: seq<string>): (r: Element)
    requires p != Custom
    ensures r.tag == root.tag && r.attrs == root.attrs && r.text == root.text
    ensures forall c :: c in r.children <==> c in root.children && ChildKey(p, c) !in fields
    ensures forall n :: 0 <= n <= |root.children| ==>
              r.children == Keep(p, root.children[..n], fields) + Keep(p, root.children[n..], fields)
  {
    forall n | 0 <= n <= |root.children|
      ensures Keep(p, root.children, fields) == Keep(p, root.children[..n], fields) + Keep(p, root.children[n..], fields)
    {
      KeepSplit(p, root.children, n, fields);
    }
    root.(children := Keep(p, root.children, fields))
  }

  lemma KeepSplit(p: Part, cs: seq<Element>, n: int, fields: seq<string>)
    requires 0 <= n <= |cs|
    ensures Keep(p, cs, fields) == Keep(p, cs[..n], fields) + Keep(p, cs[n..], fields)
  {
    assert cs[..n] + cs[n..] == cs;
    KeepAppend(p, cs[..n], cs[n..], fields);
  }

  /** Filtering a concatenation filters each half: the children that stay keep
      their relative order. */
  lemma {:induction false} KeepAppend(p: Part, a: seq<Element>, b: seq<Element>, fields: seq<string>)
    ensures Keep(p, a + b, fields) == Keep(p, a, fields) + Keep(p, b, fields)
  {
    if |a| == 0 {
      assert a + b == b;
    } else {
      assert (a + b)[0] == a[0];
      assert (a + b)[1..] == a[1..] + b;
      KeepAppend(p, a[1..], b, fields);
    }
  }

  lemma {:induction false} ChildPairsKeep(p: Part, cs: seq<Element>, fields: seq<string>)
    ensures ChildPairs(p, Keep(p, cs, fields)) == Without(ChildPairs(p, cs), fields)
  {
    if |cs| > 0 {
      ChildPairsKeep(p, cs[1..], fields);
      assert ChildPairs(p, cs)[0] == (ChildKey(p, cs[0]), TextValue(cs[0]));
      assert ChildPairs(p, cs)[1..] == ChildPairs(p, cs[1..]);
      if ChildKey(p, cs[0]) !in fields {
        var k := Keep(p, cs[1..], fields);
        assert ([cs[0]] + k)[0] == cs[0] && ([cs[0]] + k)[1..] == k;
      }
    }
  }

  /** Read after delete: the listed keys are gone and every other key keeps
      its value. */
  lemma ReadAfterDelete(p: Part, root: Element, fields: seq<string>)
    requires p != Custom
    ensures Read(p, Delete(p, root, fields)) == Read(p, root) - KeySet(fields)
  {
    ChildPairsKeep(p, root.children, fields);
    CollectWithout(ChildPairs(p, root.children), fields);
  }

  lemma {:induction false} KeepTwice(p: Part, cs: seq<Element>, fields: seq<string>)
    ensures Keep(p, Keep(p, cs, fields), fields) == Keep(p, cs, fields)
  {
    if |cs| > 0 {
      KeepTwice(p, cs[1..], fields);
      if ChildKey(p, cs[0]) !in fields {
        var k := Keep(p, cs[1..], fields);
        assert ([cs[0]] + k)[0] == cs[0] && ([cs[0]] + k)[1..] == k;
      }
    }
  }

  /** Deleting the same list twice gives the tree deleting it once gave. */
  lemma DeleteIdempotent(p: Part, root: Element, fields: seq<string>)
    requires p != Custom
    ensures Delete(p, Delete(p, root, fields), fields) == Delete(p, root, fields)
  {
    KeepTwice(p, root.children, fields);
  }

  lemma {:induction false} KeepNothing(p: Part, cs: seq<Element>, fields: seq<string>)
    requires forall i :: 0 <= i < |cs| ==> ChildKey(p, cs[i]) !in fields
    ensures Keep(p, cs, fields) == cs
  {
    if |cs| > 0 {
      var rest := cs[1..];
      assert forall i :: 0 <= i < |rest| ==> ChildKey(p, rest[i]) !in fields by {
        forall i | 0 <= i < |rest| ensures ChildKey(p, rest[i]) !in fields {
          assert rest[i] == cs[i + 1];
        }
      }
      KeepNothing(p, rest, fields);
      assert ChildKey(p, cs[0]) !in fields;
      HeadTail(cs);
    }
  }

  /** A non-empty sequence is its head followed by its tail. */
  lemma HeadTail(cs: seq<Element>)
    requires |cs| > 0
    ensures [cs[0]] + cs[1..] == cs
  {
  }

  /** Deleting keys the part does not hold leaves its tree as it was. */
  lemma DeleteAbsentKeys(p: Part, root: Element, fields: seq<string>)
    requires p != Custom
    requires forall k :: k in fields ==> k !in Read(p, root)
    ensures Delete(p, root, fields) == root
  {
    forall i | 0 <= i < |root.children| ensures ChildKey(p, root.children[i]) !in fields {
      assert ChildKey(p, root.children[i]) in Read(p, root);
    }
    KeepNothing(p, root.children, fields);
  }
}

=== FILE: custom_properties.dfy ===
/** Reading and deleting properties of the custom part: `<property name="…">`
    elements of the custom-properties namespace, found at any depth, each valued
    by its first typed child of the docPropsVTypes namespace. */
module CustomProperties {
  import opened Outcomes
  import opened Strings
  import opened Xml
  import opened Parts
  import opened KeyValues

  const NsCustom := "http://schemas.openxmlformats.org/officeDocument/2006/custom-properties"
  const NsVt := "http://schemas.openxmlformats.org/officeDocument/2006/docPropsVTypes"

  /** The tag `findall('.//{custom-properties}property')` matches. */
  const PropertyTag := "{" + NsCustom + "}property"

  /** What `findall('./{docPropsVTypes}*')` matches: any tag in that namespace. */
  const TypedPrefix := "{" + NsVt + "}"

  predicate IsProperty(e: Element) {
    e.tag == PropertyTag
  }

  predicate IsTyped(e: Element) {
    HasPrefix(e.tag, TypedPrefix)
  }

  /** `f"custom:{prop.get('name')}"`: a property without a `name` attribute gets
      the key `custom:None`. */
  function PropertyKey(e: Element): string {
    Key(Custom, if "name" in e.attrs then e.attrs["name"] else "None")
  }

  /** The text of the first typed child, or `''` when there is none. */
  function FirstTypedValue(cs: seq<Element>): (r: string)
    ensures (forall i :: 0 <= i < |cs| ==> !IsTyped(cs[i])) ==> r == ""
    ensures forall i :: 0 <= i < |cs| && IsTyped(cs[i]) && (forall j :: 0 <= j < i ==> !IsTyped(cs[j])) ==>
              r == TextValue(cs[i])
  {
    if |cs| == 0 then ""
    else if IsTyped(cs[0]) then TextValue(cs[0])
    else
      var rest := cs[1..];
      assert forall i :: 1 <= i < |cs| ==> cs[i] == rest[i - 1];
      FirstTypedValue(rest)
  }

  function PropertyValue(e: Element): string {
    FirstTypedValue(e.children)
  }

  /** The assignments the read loop makes: one per property element of `ds`,
      in the order of `ds`. */
  function PropertyPairs(ds: seq<Element>): (r: seq<(string, string)>)
    ensures forall x :: x in r <==> exists d :: d in ds && IsProperty(d) && x == (PropertyKey(d), PropertyValue(d))
  {
    if |ds| == 0 then []
    else if IsProperty(ds[0]) then [(PropertyKey(ds[0]), PropertyValue(ds[0]))] + PropertyPairs(ds[1..])
    else PropertyPairs(ds[1..])
  }

  /** The properties of a custom part whose document root is `root`: one key
      per property element anywhere below the root, valued by the last such
      element in document order that carries it. */
  function Read(root: Element): (m: map<string, string>)
    ensures forall k :: k in m <==>
              exists d :: d in Descendants(root) && IsProperty(d) && PropertyKey(d) == k
    ensures forall i :: 0 <= i < |Descendants(root)| && LastWithItsKey(Descendants(root), i) ==>
              PropertyKey(Descendants(root)[i]) in m && m[PropertyKey(Descendants(root)[i])] == PropertyValue(Descendants(root)[i])
  {
    var ds := Descendants(root);
    PropertyPairsSpec(ds);
    forall i | 0 <= i < |ds| && LastWithItsKey(ds, i)
      ensures PropertyKey(ds[i]) in Collect(PropertyPairs(ds)) && Collect(PropertyPairs(ds))[PropertyKey(ds[i])] == PropertyValue(ds[i])
    {
      PropertyPairsLastWins(ds, i);
    }
    Collect(PropertyPairs(ds))
  }

  /** Element `i` of `ds` is a property and no later property of `ds` has its
      key. */
  predicate LastWithItsKey(ds: seq<Element>, i: int)
    requires 0 <= i < |ds|
  {
    IsProperty(ds[i]) && forall j :: i < j < |ds| && IsProperty(ds[j]) ==> PropertyKey(ds[j]) != PropertyKey(ds[i])
  }

  /** Later assignments overwrite earlier ones: the value of a key is that of
      the last property carrying it. */
  lemma {:induction false} PropertyPairsLastWins(ds: seq<Element>, i: int)
    requires 0 <= i < |ds| && LastWithItsKey(ds, i)
    ensures PropertyKey(ds[i]) in Collect(PropertyPairs(ds))
    ensures Collect(PropertyPairs(ds))[PropertyKey(ds[i])] == PropertyValue(ds[i])
  {
    var k := PropertyKey(ds[i]);
    var rest := ds[1..];
    PropertyPairsSpec(rest);
    if i > 0 {
      assert LastWithItsKey(rest, i - 1) by {
        forall j | i - 1 < j < |rest| && IsProperty(rest[j]) ensures PropertyKey(rest[j]) != k {
          assert rest[j] == ds[j + 1];
        }
      }
      PropertyPairsLastWins(rest, i - 1);
    } else {
      assert k !in Collect(PropertyPairs(rest)) by {
        forall d | d in rest && IsProperty(d) ensures PropertyKey(d) != k {
          var j :| 0 <= j < |rest| && rest[j] == d;
          assert ds[j + 1] == d;
        }
      }
    }
    if IsProperty(ds[0]) {
      var ps := PropertyPairs(ds);
      assert ps[0] == (PropertyKey(ds[0]), PropertyValue(ds[0]));
      assert ps[1..] == PropertyPairs(rest);
    }
  }

  lemma PropertyPairsSpec(ds: seq<Element>)
    ensures forall k :: k in Collect(PropertyPairs(ds)) <==>
              exists d :: d in ds && IsProperty(d) && PropertyKey(d) == k
  {
    forall k ensures k in Collect(PropertyPairs(ds)) <==> exists d :: d in ds && IsProperty(d) && PropertyKey(d) == k {
      PropertyKeyFound(ds, k);
    }
  }

  lemma PropertyKeyFound(ds: seq<Element>, k: string)
    ensures k in Collect(PropertyPairs(ds)) <==> exists d :: d in ds && IsProperty(d) && PropertyKey(d) == k
  {
    if k in Collect(PropertyPairs(ds)) {
      ReadKeyHasProperty(ds, k);
    }
    if exists d :: d in ds && IsProperty(d) && PropertyKey(d) == k {
      var d :| d in ds && IsProperty(d) && PropertyKey(d) == k;
      PropertyKeyRead(ds, d);
    }
  }

  /** Every key read comes from some property. */
  lemma ReadKeyHasProperty(ds: seq<Element>, k: string)
    requires k in Collect(PropertyPairs(ds))
    ensures exists d :: d in ds && IsProperty(d) && PropertyKey(d) == k
  {
    var ps := PropertyPairs(ds);
    var i :| 0 <= i < |ps| && ps[i].0 == k;
    assert ps[i] in ps;
  }

  /** Every property's key is read. */
  lemma PropertyKeyRead(ds: seq<Element>, d: Element)
    requires d in ds && IsProperty(d)
    ensures PropertyKey(d) in Collect(PropertyPairs(ds))
  {
    var ps := PropertyPairs(ds);
    var x := (PropertyKey(d), PropertyValue(d));
    assert x in ps;
    var i :| 0 <= i < |ps| && ps[i] == x;
    assert Assigns(ps, PropertyKey(d));
  }

  /** A property element the delete loop hands to `root.remove`. */
  predicate Listed(e: Element, fields: seq<string>) {
    IsProperty(e) && PropertyKey(e) in fields
  }

  predicate AnyListed(ds: seq<Element>, fields: seq<string>) {
    exists d :: d in ds && Listed(d, fields)
  }

  /** Some listed property sits below a child of the root rather than being
      one: removing it from the root fails. */
  predicate ListedBelowChildren(cs: seq<Element>, fields: seq<string>) {
    exists c :: c in cs && AnyListed(Forest(c.children), fields)
  }

  /** The children of the root the delete loop leaves in place. */
  function KeepUnlisted(cs: seq<Element>, fields: seq<string>): (r: seq<Element>)
    ensures forall c :: c in r <==> c in cs && !Listed(c, fields)
    ensures |r| <= |cs|
  {
    if |cs| == 0 then []
    else if Listed(cs[0], fields) then KeepUnlisted(cs[1..], fields)
    else [cs[0]] + KeepUnlisted(cs[1..], fields)
  }

  /** Filtering a concatenation filters each half: the children that stay
      keep their relative order, and none is repeated. */
  lemma {:induction false} KeepUnlistedAppend(a: seq<Element>, b: seq<Element>, fields: seq<string>)
    ensures KeepUnlisted(a + b, fields) == KeepUnlisted(a, fields) + KeepUnlisted(b, fields)
  {
    if |a| == 0 {
      assert a + b == b;
    } else {
      assert (a + b)[0] == a[0];
      assert (a + b)[1..] == a[1..] + b;
      KeepUnlistedAppend(a[1..], b, fields);
    }
  }

  lemma KeepUnlistedSplit(cs: seq<Element>, n: int, fields: seq<string>)
    requires 0 <= n <= |cs|
    ensures KeepUnlisted(cs, fields) == KeepUnlisted(cs[..n], fields) + KeepUnlisted(cs[n..], fields)
  {
    assert cs[..n] + cs[n..] == cs;
    KeepUnlistedAppend(cs[..n], cs[n..], fields);
  }

  /** `root.remove(prop)` for every listed property found below the root. It
      succeeds when every listed property is a direct child of the root, and
      then the root keeps exactly its unlisted children in their relative
      order; a listed property deeper down makes the removal raise. */
  function Delete(root: Element, fields: seq<string>): (r: Result<Element, Error>)
    ensures r.Err? <==> ListedBelowChildren(root.children, fields)
    ensures r.Err? ==> r.error == PropertyNotDirectChild
    ensures r.Ok? ==> r.value.tag == root.tag && r.value.attrs == root.attrs && r.value.text == root.text
    ensures r.Ok? ==> forall c :: c in r.value.children <==> c in root.children && !Listed(c, fields)
    ensures r.Ok? ==> forall n :: 0 <= n <= |root.children| ==>
              r.value.children == KeepUnlisted(root.children[..n], fields) + KeepUnlisted(root.children[n..], fields)
  {
    if ListedBelowChildren(root.children, fields) then Err(PropertyNotDirectChild)
    else
      forall n | 0 <= n <= |root.children|
        ensures KeepUnlisted(root.children, fields) ==
                KeepUnlisted(root.children[..n], fields) + KeepUnlisted(root.children[n..], fields)
      {
        KeepUnlistedSplit(root.children, n, fields);
      }
      Ok(root.(children := KeepUnlisted(root.children, fields)))
  }

  /** No property element sits inside a property that is a child of the root,
      as in every custom part an office suite writes. */
  predicate Flat(root: Element) {
    forall c :: c in root.children && IsProperty(c) ==>
      forall d :: d in Forest(c.children) ==> !IsProperty(d)
  }

  lemma {:induction false} PropertyPairsAppend(a: seq<Element>, b: seq<Element>)
    ensures PropertyPairs(a + b) == PropertyPairs(a) + PropertyPairs(b)
  {
    if |a| == 0 {
      assert a + b == b;
    } else {
      assert (a + b)[0] == a[0];
      assert (a + b)[1..] == a[1..] + b;
      PropertyPairsAppend(a[1..], b);
    }
  }

  lemma PropertyPairsUnlisted(ds: seq<Element>, fields: seq<string>)
    requires !AnyListed(ds, fields)
    ensures Without(PropertyPairs(ds), fields) == PropertyPairs(ds)
  {
    var ps := PropertyPairs(ds);
    forall i | 0 <= i < |ps| ensures ps[i].0 !in fields {
      assert ps[i] in ps;
    }
    WithoutNothing(ps, fields);
  }

  lemma PropertyPairsNone(ds: seq<Element>)
    requires forall d :: d in ds ==> !IsProperty(d)
    ensures PropertyPairs(ds) == []
  {
  }

  /** The heart of read-after-delete: the properties still found below the
      root are the old ones minus the listed ones. */
  lemma {:induction false} PropertyPairsKeepUnlisted(cs: seq<Element>, fields: seq<string>)
    requires !ListedBelowChildren(cs, fields)
    requires forall c :: c in cs && IsProperty(c) ==> forall d :: d in Forest(c.children) ==> !IsProperty(d)
    ensures PropertyPairs(Forest(KeepUnlisted(cs, fields))) == Without(PropertyPairs(Forest(cs)), fields)
  {
    if |cs| > 0 {
      var c := cs[0];
      var below := Forest(c.children);
      var rest := cs[1..];
      PropertyPairsKeepUnlisted(rest, fields);
      assert Forest(cs) == [c] + below + Forest(rest);
      PropertyPairsAppend([c] + below, Forest(rest));
      PropertyPairsAppend([c], below);
      WithoutAppend(PropertyPairs([c]) + PropertyPairs(below), PropertyPairs(Forest(rest)), fields);
      WithoutAppend(PropertyPairs([c]), PropertyPairs(below), fields);
      assert !AnyListed(below, fields);
      if Listed(c, fields) {
        PropertyPairsNone(below);
        assert Without(PropertyPairs([c]), fields) == [];
      } else {
        PropertyPairsUnlisted(below, fields);
        PropertyPairsUnlisted([c], fields);
        var k := KeepUnlisted(rest, fields);
        assert ([c] + k)[0] == c && ([c] + k)[1..] == k;
        assert Forest([c] + k) == [c] + below + Forest(k);
        PropertyPairsAppend([c] + below, Forest(k));
        PropertyPairsAppend([c], below);
      }
    }
  }

  /** Read after delete: when deleting succeeds on a flat part, the listed keys
      are gone and every other key keeps its value. */
  lemma ReadAfterDelete(root: Element, fields: seq<string>)
    requires Delete(root, fields).Ok?
    requires Flat(root)
    ensures Read(Delete(root, fields).value) == Read(root) - KeySet(fields)
  {
    PropertyPairsKeepUnlisted(root.children, fields);
    CollectWithout(PropertyPairs(Descendants(root)), fields);
  }

  /** Without `Flat`, a property nested inside a listed one disappears with it
      even though its own key is not listed. */
  lemma NestedPropertyLeavesWithItsParent()
    ensures var inner := Element(PropertyTag, map["name" := "b"], None, []);
            var outer := Element(PropertyTag, map["name" := "a"], None, [inner]);
            var root := Element("{" + NsCustom + "}Properties", map[], None, [outer]);
            && Delete(root, ["custom:a"]).Ok?
            && "custom:b" in Read(root)
            && "custom:b" !in Read(Delete(root, ["custom:a"]).value)
  {
    var inner := Element(PropertyTag, map["name" := "b"], None, []);
    var outer := Element(PropertyTag, map["name" := "a"], None, [inner]);
    var root := Element("{" + NsCustom + "}Properties", map[], None, [outer]);
    assert Key(Custom, "b") == "custom:b";
    assert Key(Custom, "a") == "custom:a";
    assert Forest(inner.children) == [];
    assert [inner][1..] == [] && [outer][1..] == [];
    assert Forest(outer.children) == [inner];
    assert Forest([outer]) == [outer] + [inner] + [];
    assert Descendants(root) == [outer, inner];
    assert !ListedBelowChildren(root.children, ["custom:a"]);
    assert PropertyKey(inner) == "custom:b";
    assert inner in Descendants(root);
    assert KeepUnlisted(root.children, ["custom:a"]) == [];
  }

  /** A nested listed property is the one case the delete loop rejects. */
  lemma NestedListedPropertyRaises()
    ensures var prop := Element(PropertyTag, map["name" := "a"], None, []);
            var group := Element("group", map[], None, [prop]);
            var root := Element("{" + NsCustom + "}Properties", map[], None, [group]);
            Delete(root, ["custom:a"]) == Err(PropertyNotDirectChild)
  {
    var prop := Element(PropertyTag, map["name" := "a"], None, []);
    var group := Element("group", map[], None, [prop]);
    assert Key(Custom, "a") == "custom:a";
    assert Forest(group.children) == [prop];
    assert Listed(prop, ["custom:a"]);
  }

  lemma {:induction false} KeepUnlistedTwice(cs: seq<Element>, fields: seq<string>)
    ensures KeepUnlisted(KeepUnlisted(cs, fields), fields) == KeepUnlisted(cs, fields)
  {
    if |cs| > 0 {
      KeepUnlistedTwice(cs[1..], fields);
      if !Listed(cs[0], fields) {
        var k := KeepUnlisted(cs[1..], fields);
        assert ([cs[0]] + k)[0] == cs[0] && ([cs[0]] + k)[1..] == k;
      }
    }
  }

  /** Deleting the same list again after a successful delete succeeds and
      changes nothing more. */
  lemma DeleteIdempotent(root: Element, fields: seq<string>)
    requires Delete(root, fields).Ok?
    ensures Delete(Delete(root, fields).value, fields) == Delete(root, fields)
  {
    KeepUnlistedTwice(root.children, fields);
  }

  /** Every element below a child of the root is below the root. */
  lemma {:induction false} ForestOfChild(cs: seq<Element>, c: Element)
    requires c in cs
    ensures forall d :: d in [c] + Forest(c.children) ==> d in Forest(cs)
  {
    var i :| 0 <= i < |cs| && cs[i] == c;
    if i == 0 {
    } else {
      ForestOfChild(cs[1..], c);
    }
  }

  lemma {:induction false} KeepUnlistedNothing(cs: seq<Element>, fields: seq<string>)
    requires forall c :: c in cs ==> !Listed(c, fields)
    ensures KeepUnlisted(cs, fields) == cs
  {
    if |cs| > 0 {
      KeepUnlistedNothing(cs[1..], fields);
    }
  }

  /** Deleting keys the part does not hold succeeds and leaves its tree as it
      was. */
  lemma DeleteAbsentKeys(root: Element, fields: seq<string>)
    requires forall k :: k in fields ==> k !in Read(root)
    ensures Delete(root, fields) == Ok(root)
  {
    forall c | c in root.children ensures !Listed(c, fields) && !AnyListed(Forest(c.children), fields) {
      ForestOfChild(root.children, c);
    }
    KeepUnlistedNothing(root.children, fields);
  }
}

=== FILE: facade.dfy ===
/** `get_metadata` and `delete_metadata`: reading every property of a package
    into one dict, and rewriting a package so that listed properties vanish
    while every other entry is copied through. */
module Facade {
  import opened Outcomes
  import opened Octets
  import opened Xml
  import opened Parts
  import opened Archive
  import opened PropertyCodec
  import opened PyPath
  import opened KeyValues

  /** `OFFICE_EXTENSIONS`: the extensions `delete_metadata` accepts. */
  const OfficeExtensions: set<string> := {".docx", ".xlsx"}

  /** A file on disk: a ZIP package, or anything else. */
  datatype StoredFile = ZipFile(package: Package) | OtherFile(data: Bytes)

  /** The files on disk, by path. */
  type Store = map<string, StoredFile>

  /** One pass of the read loop: a missing part contributes nothing, a part
      that does not parse aborts the read. */
  function ReadPart(c: XmlCodec, pkg: Package, p: Part): Result<map<string, string>, Error> {
    match Lookup(pkg, PartPath(p))
    case None => Ok(map[])
    case Some(b) =>
      match c.parse(b)
      case None => Err(MalformedPart(PartPath(p)))
      case Some(root) => Ok(PartMetadata(p, root))
  }

  /** The metadata dict of a package: the parts in the order core, app,
      custom, all keys in one dict. It fails exactly when a part that is
      present does not parse, and each part's prefix then selects exactly
      that part's contribution. */
  function ReadMetadata(c: XmlCodec, pkg: Package): (r: Result<map<string, string>, Error>)
    ensures r.Ok? <==> forall p :: ReadPart(c, pkg, p).Ok?
    ensures r.Ok? ==> forall p, k :: HasPrefixOf(k, p) ==>
              (k in r.value <==> k in ReadPart(c, pkg, p).value) &&
              (k in r.value ==> r.value[k] == ReadPart(c, pkg, p).value[k])
    ensures r.Ok? ==> forall k :: k in r.value ==> exists p :: HasPrefixOf(k, p)
  {
    var core :- ReadPart(c, pkg, Core);
    var app :- ReadPart(c, pkg, App);
    var custom :- ReadPart(c, pkg, Custom);
    UnionByPart(c, pkg);
    UnionPrefixed(core, app, custom);
    Ok(core + app + custom)
  }

  /** With all three parts read, each prefix selects its own part from the
      union. */
  lemma UnionByPart(c: XmlCodec, pkg: Package)
    requires ReadPart(c, pkg, Core).Ok? && ReadPart(c, pkg, App).Ok? && ReadPart(c, pkg, Custom).Ok?
    ensures forall p :: ReadPart(c, pkg, p).Ok?
    ensures forall p, k :: HasPrefixOf(k, p) ==>
              var m := ReadPart(c, pkg, Core).value + ReadPart(c, pkg, App).value + ReadPart(c, pkg, Custom).value;
              (k in m <==> k in ReadPart(c, pkg, p).value) &&
              (k in m ==> m[k] == ReadPart(c, pkg, p).value[k])
  {
    forall p ensures ReadPart(c, pkg, p).Ok? {
      match p { case Core => case App => case Custom => }
    }
    forall p, k | HasPrefixOf(k, p) {
      PrefixSelectsPart(c, pkg, p, k);
    }
  }

  /** Every key of the union carries one of the three prefixes when each
      part's dict carries its own. */
  lemma UnionPrefixed(core: map<string, string>, app: map<string, string>, custom: map<string, string>)
    requires forall k :: k in core ==> Strings.HasPrefix(k, KeyPrefix(Core))
    requires forall k :: k in app ==> Strings.HasPrefix(k, KeyPrefix(App))
    requires forall k :: k in custom ==> Strings.HasPrefix(k, KeyPrefix(Custom))
    ensures forall k :: k in core + app + custom ==> exists p :: HasPrefixOf(k, p)
  {
    forall k | k in core + app + custom ensures exists p :: HasPrefixOf(k, p) {
      if k in custom {
        assert HasPrefixOf(k, Custom);
      } else if k in app {
        assert HasPrefixOf(k, App);
      } else {
        assert HasPrefixOf(k, Core);
      }
    }
  }

  predicate HasPrefixOf(k: string, p: Part) {
    Strings.HasPrefix(k, KeyPrefix(p))
  }

  /** A key with part `p`'s prefix can only come from part `p`. */
  lemma PrefixSelectsPart(c: XmlCodec, pkg: Package, p: Part, k: string)
    requires HasPrefixOf(k, p)
    ensures forall q :: q != p && ReadPart(c, pkg, q).Ok? ==> k !in ReadPart(c, pkg, q).value
  {
    forall q | q != p && ReadPart(c, pkg, q).Ok? ensures k !in ReadPart(c, pkg, q).value {
      if k in ReadPart(c, pkg, q).value {
        assert HasPrefixOf(k, q);
        var n := k[|KeyPrefix(q)|..];
        assert k == Key(q, n);
        KeyPrefixes(q, p, n);
      }
    }
  }

  /** `get_metadata(path)`: a missing file and a file that is not a ZIP
      package are errors; a package reads as its metadata dict. */
  function GetMetadata(c: XmlCodec, store: Store, path: string): (r: Result<map<string, string>, Error>)
    ensures path !in store ==> r == Err(FileNotFound(path))
    ensures path in store && store[path].OtherFile? ==> r == Err(BadZipFile(path))
    ensures path in store && store[path].ZipFile? ==> r == ReadMetadata(c, store[path].package)
  {
    if path !in store then Err(FileNotFound(path))
    else match store[path]
      case OtherFile(_) => Err(BadZipFile(path))
      case ZipFile(pkg) => ReadMetadata(c, pkg)
  }

  /** The bytes the delete loop writes for an entry named `name` whose stored
      bytes are `data`: a property part is parsed, pruned and serialized again
      (even when nothing was removed); any other entry is copied. */
  function RewriteData(c: XmlCodec, fields: seq<string>, name: string, data: Bytes): (r: Result<Bytes, Error>)
    ensures PartOfPath(name).None? ==> r == Ok(data)
  {
    match PartOfPath(name)
    case None => Ok(data)
    case Some(p) =>
      match c.parse(data)
      case None => Err(MalformedPart(name))
      case Some(root) =>
        var pruned :- DeletePart(p, root, fields);
        Ok(c.serialize(pruned))
  }

  /** One pass of the delete loop, for entry `i`: `zout.writestr(item, data)`
      with the data `zin.read(item.filename)` returned, possibly rewritten. */
  function RewriteAt(c: XmlCodec, pkg: Package, fields: seq<string>, i: int): Result<Entry, Error>
    requires 0 <= i < |pkg|
  {
    var d :- RewriteData(c, fields, pkg[i].name, Lookup(pkg, pkg[i].name).value);
    Ok(Entry(pkg[i].name, d))
  }

  /** Pass `i` is the first pass of the delete loop that fails. */
  predicate FirstFailure(c: XmlCodec, pkg: Package, fields: seq<string>, i: int) {
    0 <= i < |pkg| && RewriteAt(c, pkg, fields, i).Err? &&
    forall j :: 0 <= j < i ==> RewriteAt(c, pkg, fields, j).Ok?
  }

  /** The entries the delete loop has written after its first `n` passes, or
      the error of the first pass that failed. */
  function RewritePrefix(c: XmlCodec, pkg: Package, fields: seq<string>, n: int): (r: Result<Package, Error>)
    requires 0 <= n <= |pkg|
    ensures r.Ok? <==> forall i :: 0 <= i < n ==> RewriteAt(c, pkg, fields, i).Ok?
    ensures r.Ok? ==> |r.value| == n && forall i :: 0 <= i < n ==> RewriteAt(c, pkg, fields, i) == Ok(r.value[i])
    ensures r.Err? ==> exists i :: 0 <= i < n && FirstFailure(c, pkg, fields, i) && r.error == RewriteAt(c, pkg, fields, i).error
  {
    if n == 0 then Ok([])
    else
      var init :- RewritePrefix(c, pkg, fields, n - 1);
      var last :- RewriteAt(c, pkg, fields, n - 1);
      Ok(init + [last])
  }

  /** The package the delete loop builds from `pkg`: the same names in the
      same order, each entry that is not a property part holding the bytes
      stored under its name, each property part the rewritten bytes of the
      part stored under its name. */
  function Rewrite(c: XmlCodec, pkg: Package, fields: seq<string>): (r: Result<Package, Error>)
    ensures r.Ok? <==> forall i :: 0 <= i < |pkg| ==> RewriteAt(c, pkg, fields, i).Ok?
    ensures r.Err? ==> exists i :: FirstFailure(c, pkg, fields, i) && r.error == RewriteAt(c, pkg, fields, i).error
    ensures r.Ok? ==> |r.value| == |pkg| && forall i :: 0 <= i < |pkg| ==> RewriteAt(c, pkg, fields, i) == Ok(r.value[i])
    ensures r.Ok? ==> Names(r.value) == Names(pkg)
    ensures r.Ok? ==> forall i :: 0 <= i < |pkg| ==>
              RewriteData(c, fields, pkg[i].name, Lookup(pkg, pkg[i].name).value) == Ok(r.value[i].data)
    ensures r.Ok? ==> forall i :: 0 <= i < |pkg| && PartOfPath(pkg[i].name).None? ==>
              Some(r.value[i].data) == Lookup(pkg, pkg[i].name)
  {
    var out :- RewritePrefix(c, pkg, fields, |pkg|);
    assert Names(out) == Names(pkg) by {
      forall i | 0 <= i < |pkg| ensures Names(out)[i] == Names(pkg)[i] {
        assert RewriteAt(c, pkg, fields, i) == Ok(out[i]);
      }
    }
    Ok(out)
  }

  /** `DocxMetadataHelper.delete_metadata` and `delete_docx_metadata`: no check
      of the extension; the file is replaced only once the whole new package
      is built. */
  function DeleteUnguarded(c: XmlCodec, store: Store, path: string, fields: seq<string>): (r: Result<Store, Error>)
    ensures path !in store ==> r == Err(FileNotFound(path))
    ensures path in store && store[path].OtherFile? ==> r == Err(BadZipFile(path))
    ensures path in store && store[path].ZipFile? ==>
              (r.Ok? <==> Rewrite(c, store[path].package, fields).Ok?)
    ensures r.Ok? ==> path in store && store[path].ZipFile? && r.value.Keys == store.Keys
    ensures r.Ok? ==> forall q :: q in store && q != path ==> r.value[q] == store[q]
    ensures r.Ok? ==> r.value[path].ZipFile? && Names(r.value[path].package) == Names(store[path].package)
  {
    if path !in store then Err(FileNotFound(path))
    else match store[path]
      case OtherFile(_) => Err(BadZipFile(path))
      case ZipFile(pkg) =>
        var out :- Rewrite(c, pkg, fields);
        Ok(store[path := ZipFile(out)])
  }

  /** `OfficeMetadataHelper.delete_metadata`: the extension guard runs first,
      before any file is touched, and otherwise the work is the unguarded
      one. */
  function DeleteGuarded(c: XmlCodec, store: Store, path: string, fields: seq<string>): (r: Result<Store, Error>)
    ensures Extension(path) !in OfficeExtensions ==> r == Err(UnsupportedFileType(Extension(path)))
    ensures Extension(path) in OfficeExtensions ==> r == DeleteUnguarded(c, store, path, fields)
  {
    var ext := Extension(path);
    if ext !in OfficeExtensions then Err(UnsupportedFileType(ext))
    else DeleteUnguarded(c, store, path, fields)
  }

  /** The delete loop over the entries of the file at `path`, writing into a
      temporary package that replaces the file only after the last entry. */
  method RewriteInPlace(c: XmlCodec, store: Store, path: string, fields: seq<string>) returns (r: Result<Store, Error>)
    ensures r == DeleteUnguarded(c, store, path, fields)
    ensures r.Ok? ==> path in store && store[path].ZipFile? && r.value.Keys == store.Keys
    ensures r.Ok? ==> forall q :: q in store && q != path ==> r.value[q] == store[q]
    ensures r.Ok? ==> r.value[path].ZipFile? && Names(r.value[path].package) == Names(store[path].package)
  {
    if path !in store {
      return Err(FileNotFound(path));
    }
    if store[path].OtherFile? {
      return Err(BadZipFile(path));
    }
    var pkg := store[path].package;
    var tmp: Package := [];
    var i := 0;
    while i < |pkg|
      invariant 0 <= i <= |pkg|
      invariant RewritePrefix(c, pkg, fields, i) == Ok(tmp)
    {
      var written := RewriteAt(c, pkg, fields, i);
      if written.Err? {
        var whole := Rewrite(c, pkg, fields);
        assert whole.Err?;
        var first :| FirstFailure(c, pkg, fields, first) && whole.error == RewriteAt(c, pkg, fields, first).error;
        assert first == i;
        return Err(written.error);
      }
      tmp := tmp + [written.value];
      i := i + 1;
    }
    r := Ok(store[path := ZipFile(tmp)]);
  }

  /** `OfficeMetadataHelper.delete_metadata(path, fields)`. */
  method DeleteMetadata(c: XmlCodec, store: Store, path: string, fields: seq<string>) returns (r: Result<Store, Error>)
    ensures Extension(path) !in OfficeExtensions ==> r == Err(UnsupportedFileType(Extension(path)))
    ensures r == DeleteGuarded(c, store, path, fields)
  {
    var ext := Extension(path);
    if ext !in OfficeExtensions {
      return Err(UnsupportedFileType(ext));
    }
    r := RewriteInPlace(c, store, path, fields);
  }
}

=== FILE: facade_properties.dfy ===
/** What reading and deleting promise of each other at the level of whole
    packages and files. */
module FacadeProperties {
  import opened Outcomes
  import opened Octets
  import opened Xml
  import opened Parts
  import opened Archive
  import opened KeyValues
  import opened PropertyCodec
  import opened PyPath
  import opened Facade
  import Strings

  /** The tree stored for part `p`, when the part is present and parses. */
  function PartTree(c: XmlCodec, pkg: Package, p: Part): Option<Element> {
    match Lookup(pkg, PartPath(p))
    case None => None
    case Some(b) => c.parse(b)
  }

  /** The custom part, if present and well formed, keeps no property nested in
      a property child of its root; core and app parts need nothing. */
  predicate PartReadable(c: XmlCodec, pkg: Package, p: Part) {
    match PartTree(c, pkg, p)
    case None => true
    case Some(t) => DeleteReadable(p, t)
  }

  /** Reading a name from the rewritten package gives the rewritten bytes of
      the entry stored under that name, and nothing for a name the package
      never held. */
  lemma LookupAfterRewrite(c: XmlCodec, pkg: Package, fields: seq<string>, name: string)
    requires Rewrite(c, pkg, fields).Ok?
    ensures Lookup(pkg, name).None? ==> Lookup(Rewrite(c, pkg, fields).value, name).None?
    ensures Lookup(pkg, name).Some? ==>
              Lookup(Rewrite(c, pkg, fields).value, name).Some? &&
              RewriteData(c, fields, name, Lookup(pkg, name).value) == Ok(Lookup(Rewrite(c, pkg, fields).value, name).value)
  {
    var out := Rewrite(c, pkg, fields).value;
    var stored := Lookup(pkg, name);
    if stored.Some? {
      var i :| 0 <= i < |pkg| && pkg[i] == Entry(name, stored.value) && LastNamed(pkg, i);
      var data := RewriteData(c, fields, name, stored.value);
      assert RewriteAt(c, pkg, fields, i).Ok?;
      forall j | 0 <= j < |out| && out[j].name == name ensures out[j].data == data.value {
        assert Names(out)[j] == Names(pkg)[j];
      }
      LookupParallel(pkg, out, name, data.value);
    } else {
      LookupParallel(pkg, out, name, []);
    }
  }

  /** A package the delete accepts is one the read accepts: every property
      part present in it parses. */
  lemma RewriteOkReads(c: XmlCodec, pkg: Package, fields: seq<string>)
    requires Rewrite(c, pkg, fields).Ok?
    ensures ReadMetadata(c, pkg).Ok?
  {
    forall p ensures ReadPart(c, pkg, p).Ok? {
      RewriteOkReadsPart(c, pkg, fields, p);
    }
  }

  lemma RewriteOkReadsPart(c: XmlCodec, pkg: Package, fields: seq<string>, p: Part)
    requires Rewrite(c, pkg, fields).Ok?
    ensures ReadPart(c, pkg, p).Ok?
  {
    var b := Lookup(pkg, PartPath(p));
    if b.Some? {
      var i :| 0 <= i < |pkg| && pkg[i] == Entry(PartPath(p), b.value) && LastNamed(pkg, i);
      assert RewriteAt(c, pkg, fields, i).Ok?;
      PartOfPathInverse(p);
    }
  }

  /** Read after delete, for one part: the part keeps every key not listed,
      with its value, and loses every listed one. */
  lemma ReadPartAfterRewrite(c: XmlCodec, pkg: Package, fields: seq<string>, p: Part)
    requires Lawful(c)
    requires Rewrite(c, pkg, fields).Ok?
    requires PartReadable(c, pkg, p)
    ensures ReadPart(c, pkg, p).Ok?
    ensures ReadPart(c, Rewrite(c, pkg, fields).value, p) == Ok(ReadPart(c, pkg, p).value - KeySet(fields))
  {
    RewriteOkReads(c, pkg, fields);
    var out := Rewrite(c, pkg, fields).value;
    var path := PartPath(p);
    LookupAfterRewrite(c, pkg, fields, path);
    PartOfPathInverse(p);
    var b := Lookup(pkg, path);
    if b.None? {
      assert ReadPart(c, out, p) == Ok(map[]);
      var none: map<string, string> := map[];
      assert none - KeySet(fields) == none;
    } else {
      var t := c.parse(b.value).value;
      assert Canonical(t);
      var pruned := DeletePart(p, t, fields).value;
      DeletePartCanonical(p, t, fields);
      assert Lookup(out, path) == Some(c.serialize(pruned));
      assert c.parse(c.serialize(pruned)) == Some(pruned);
      ReadAfterDeletePart(p, t, fields);
    }
  }

  lemma MinusUnion(a: map<string, string>, b: map<string, string>, d: map<string, string>, ks: set<string>)
    ensures (a + b + d) - ks == (a - ks) + (b - ks) + (d - ks)
  {
  }

  /** Read after delete, for a package: the metadata of the rewritten package
      is the metadata before, less the listed keys. */
  lemma ReadAfterDelete(c: XmlCodec, pkg: Package, fields: seq<string>)
    requires Lawful(c)
    requires Rewrite(c, pkg, fields).Ok?
    requires PartReadable(c, pkg, Custom)
    ensures ReadMetadata(c, pkg).Ok?
    ensures ReadMetadata(c, Rewrite(c, pkg, fields).value) == Ok(ReadMetadata(c, pkg).value - KeySet(fields))
  {
    var out := Rewrite(c, pkg, fields).value;
    ReadPartAfterRewrite(c, pkg, fields, Core);
    ReadPartAfterRewrite(c, pkg, fields, App);
    ReadPartAfterRewrite(c, pkg, fields, Custom);
    MinusUnion(ReadPart(c, pkg, Core).value, ReadPart(c, pkg, App).value, ReadPart(c, pkg, Custom).value, KeySet(fields));
  }

  /** Rewriting bytes already rewritten with the same list writes them again
      unchanged: the codec round-trips the pruned tree, and pruning it again
      removes nothing. */
  lemma RewriteDataTwice(c: XmlCodec, fields: seq<string>, name: string, data: Bytes)
    requires Lawful(c)
    requires RewriteData(c, fields, name, data).Ok?
    ensures RewriteData(c, fields, name, RewriteData(c, fields, name, data).value) == RewriteData(c, fields, name, data)
  {
    match PartOfPath(name)
    case None =>
    case Some(p) =>
      var t := c.parse(data).value;
      var pruned := DeletePart(p, t, fields).value;
      DeletePartCanonical(p, t, fields);
      assert c.parse(c.serialize(pruned)) == Some(pruned);
      DeletePartIdempotent(p, t, fields);
  }

  /** Entry `i` of the rewritten package survives a second pass unchanged. */
  lemma RewriteAtAgain(c: XmlCodec, pkg: Package, fields: seq<string>, i: int)
    requires Lawful(c)
    requires Rewrite(c, pkg, fields).Ok?
    requires 0 <= i < |pkg|
    ensures RewriteAt(c, Rewrite(c, pkg, fields).value, fields, i) == Ok(Rewrite(c, pkg, fields).value[i])
  {
    var out := Rewrite(c, pkg, fields).value;
    var name := out[i].name;
    assert name == Names(out)[i] == Names(pkg)[i] == pkg[i].name;
    LookupAfterRewrite(c, pkg, fields, name);
    assert Lookup(out, name) == Some(out[i].data);
    RewriteDataTwice(c, fields, name, Lookup(pkg, name).value);
  }

  /** Deleting the same list twice leaves the package deleting it once
      produced, byte for byte. */
  lemma DeleteIdempotent(c: XmlCodec, pkg: Package, fields: seq<string>)
    requires Lawful(c)
    requires Rewrite(c, pkg, fields).Ok?
    ensures Rewrite(c, Rewrite(c, pkg, fields).value, fields) == Rewrite(c, pkg, fields)
  {
    var out := Rewrite(c, pkg, fields).value;
    forall i | 0 <= i < |out| ensures RewriteAt(c, out, fields, i) == Ok(out[i]) {
      RewriteAtAgain(c, pkg, fields, i);
    }
    var again := Rewrite(c, out, fields);
    assert again.Ok?;
    assert |again.value| == |out|;
    assert forall i :: 0 <= i < |out| ==> again.value[i] == out[i];
    assert again.value == out;
  }

  /** With no two entries of the same name, every entry that is not a
      property part is written back exactly as it was. */
  lemma OtherEntriesUntouched(c: XmlCodec, pkg: Package, fields: seq<string>, i: int)
    requires UniqueNames(pkg)
    requires Rewrite(c, pkg, fields).Ok?
    requires 0 <= i < |pkg| && PartOfPath(pkg[i].name).None?
    ensures Rewrite(c, pkg, fields).value[i] == pkg[i]
  {
    var out := Rewrite(c, pkg, fields).value;
    assert out[i].name == Names(out)[i] == Names(pkg)[i];
    LookupUnique(pkg, i);
  }

  /** Deleting keys the package does not hold is accepted and leaves every
      part with the tree it had, so the metadata reads the same. */
  lemma DeleteAbsentKeys(c: XmlCodec, pkg: Package, fields: seq<string>)
    requires Lawful(c)
    requires ReadMetadata(c, pkg).Ok?
    requires forall k :: k in fields ==> k !in ReadMetadata(c, pkg).value
    ensures Rewrite(c, pkg, fields).Ok?
    ensures forall p :: PartTree(c, Rewrite(c, pkg, fields).value, p) == PartTree(c, pkg, p)
    ensures ReadMetadata(c, Rewrite(c, pkg, fields).value) == ReadMetadata(c, pkg)
  {
    var m := ReadMetadata(c, pkg).value;
    forall i | 0 <= i < |pkg| ensures RewriteAt(c, pkg, fields, i).Ok? {
      var name := pkg[i].name;
      var b := Lookup(pkg, name).value;
      if PartOfPath(name).Some? {
        var p := PartOfPath(name).value;
        PartOfPathInverse(p);
        assert ReadPart(c, pkg, p).Ok?;
        var t := c.parse(b).value;
        AbsentFromPart(c, pkg, fields, p);
        DeletePartAbsentKeys(p, t, fields);
      }
    }
    var out := Rewrite(c, pkg, fields).value;
    forall p ensures PartTree(c, out, p) == PartTree(c, pkg, p) && ReadPart(c, out, p) == ReadPart(c, pkg, p) {
      var path := PartPath(p);
      PartOfPathInverse(p);
      LookupAfterRewrite(c, pkg, fields, path);
      if Lookup(pkg, path).Some? {
        assert ReadPart(c, pkg, p).Ok?;
        var t := c.parse(Lookup(pkg, path).value).value;
        AbsentFromPart(c, pkg, fields, p);
        DeletePartAbsentKeys(p, t, fields);
        assert Lookup(out, path) == Some(c.serialize(t));
      }
    }
  }

  lemma AbsentFromPart(c: XmlCodec, pkg: Package, fields: seq<string>, p: Part)
    requires ReadMetadata(c, pkg).Ok?
    requires forall k :: k in fields ==> k !in ReadMetadata(c, pkg).value
    ensures forall k :: k in fields ==> k !in ReadPart(c, pkg, p).value
  {
  }

  /** A part the package does not hold contributes no key: neither reading nor
      deleting needs all three parts. */
  lemma MissingPartReadsEmpty(c: XmlCodec, pkg: Package, p: Part)
    requires Lookup(pkg, PartPath(p)).None?
    ensures ReadPart(c, pkg, p) == Ok(map[])
    ensures ReadMetadata(c, pkg).Ok? ==> forall k :: k in ReadMetadata(c, pkg).value ==> !HasPrefixOf(k, p)
  {
  }

  /** Read after delete, for a file on disk: `get_metadata` after a successful
      `delete_metadata` returns the earlier dict less the listed keys, and no
      other file changes. */
  lemma GetAfterDelete(c: XmlCodec, store: Store, path: string, fields: seq<string>)
    requires Lawful(c)
    requires DeleteGuarded(c, store, path, fields).Ok?
    requires path in store && store[path].ZipFile? && PartReadable(c, store[path].package, Custom)
    ensures GetMetadata(c, store, path).Ok?
    ensures GetMetadata(c, DeleteGuarded(c, store, path, fields).value, path) == Ok(GetMetadata(c, store, path).value - KeySet(fields))
    ensures forall q :: q in store && q != path ==> DeleteGuarded(c, store, path, fields).value[q] == store[q]
  {
    ReadAfterDelete(c, store[path].package, fields);
  }

  /** Deleting the same list from the same file twice: the second call
      succeeds and changes nothing. */
  lemma DeleteMetadataIdempotent(c: XmlCodec, store: Store, path: string, fields: seq<string>)
    requires Lawful(c)
    requires DeleteGuarded(c, store, path, fields).Ok?
    ensures DeleteGuarded(c, DeleteGuarded(c, store, path, fields).value, path, fields) == DeleteGuarded(c, store, path, fields)
  {
    GuardedOkShape(c, store, path, fields);
    var pkg := store[path].package;
    var out := Rewrite(c, pkg, fields).value;
    var s1 := store[path := ZipFile(out)];
    DeleteIdempotent(c, pkg, fields);
    UnguardedAgain(c, s1, path, fields, out);
  }

  /** What a successful guarded delete did: the extension passed the guard,
      the file was a package whose rewrite succeeded, and only its entry
      changed. */
  lemma GuardedOkShape(c: XmlCodec, store: Store, path: string, fields: seq<string>)
    requires DeleteGuarded(c, store, path, fields).Ok?
    ensures Extension(path) in OfficeExtensions && path in store && store[path].ZipFile?
    ensures Rewrite(c, store[path].package, fields).Ok?
    ensures DeleteGuarded(c, store, path, fields) ==
              Ok(store[path := ZipFile(Rewrite(c, store[path].package, fields).value)])
  {
  }

  /** A file whose package the delete leaves as it is comes back unchanged. */
  lemma UnguardedAgain(c: XmlCodec, s1: Store, path: string, fields: seq<string>, out: Package)
    requires path in s1 && s1[path] == ZipFile(out)
    requires Rewrite(c, out, fields) == Ok(out)
    ensures DeleteUnguarded(c, s1, path, fields) == Ok(s1)
  {
    assert s1[path := ZipFile(out)] == s1;
  }

  /** The extension guard: `delete_metadata` on `notes.txt` is refused before
      the file is looked at, while the unguarded docx helper rewrites the same
      package. */
  lemma GuardRefusesWhatUnguardedAccepts(c: XmlCodec)
    ensures var store := map["notes.txt" := ZipFile([Entry("word/document.xml", [])])];
            DeleteGuarded(c, store, "notes.txt", ["core:title"]) == Err(UnsupportedFileType(".txt")) &&
            DeleteUnguarded(c, store, "notes.txt", ["core:title"]).Ok?
  {
    var store := map["notes.txt" := ZipFile([Entry("word/document.xml", [])])];
    TextExtension();
    TextNotOffice();
    UnguardedAccepts(c, store, "notes.txt", ["core:title"]);
  }

  lemma TextNotOffice()
    ensures ".txt" !in OfficeExtensions
  {
    assert ".txt"[1] == 't';
    assert ".docx"[1] == 'd' && ".xlsx"[1] == 'x';
  }

  lemma UnguardedAccepts(c: XmlCodec, store: Store, path: string, fields: seq<string>)
    requires path in store && store[path] == ZipFile([Entry("word/document.xml", [])])
    ensures DeleteUnguarded(c, store, path, fields).Ok?
  {
    PlainEntryRewrites(c, store[path].package, fields);
  }

  /** `notes.txt` has the extension `.txt`. */
  lemma TextExtension()
    ensures Extension("notes.txt") == ".txt"
  {
    var name := "notes.txt";
    Strings.LastIndexOfAbsent(name, '/');
    Strings.LastIndexOfAt(name, '.', 5);
    assert name[0] != '.';
    assert name[5..] == ".txt";
    var ext := SplitExt(name).1;
    assert ext == ".txt";
    assert Strings.Lower(ext) == ".txt";
  }

  /** A package holding one entry that is not a property part rewrites. */
  lemma PlainEntryRewrites(c: XmlCodec, pkg: Package, fields: seq<string>)
    requires pkg == [Entry("word/document.xml", [])]
    ensures Rewrite(c, pkg, fields).Ok?
  {
    assert PartOfPath(pkg[0].name).None?;
    assert RewriteAt(c, pkg, fields, 0).Ok?;
  }
}

=== FILE: file_names.dfy ===
/** How the web layer names files: the stored name of an upload carries a
    random token before the extension, and the download name is meant to
    drop that token again. */
module FileNames {
  import opened Strings
  import opened PyPath

  /** `uuid.uuid4().hex[:8]`: eight lower-case hexadecimal digits. */
  predicate IsToken(t: string) {
    |t| == 8 && forall i :: 0 <= i < |t| ==> t[i] in "0123456789abcdef"
  }

  /** The extension an upload is stored with: its own, or `.bin` when it has
      none. */
  function StoredExt(original: string): (r: string)
    ensures IsExt(r)
    ensures SplitExt(original).1 != [] ==> r == SplitExt(original).1
    ensures SplitExt(original).1 == [] ==> r == ".bin"
  {
    var ext := SplitExt(original).1;
    if ext == [] then ".bin" else ext
  }

  /** `save_file_bytes` naming: the original stem, an underscore, the token,
      then the stored extension. Splitting the stored name gives back the
      stem-and-token and the stored extension, so dispatch by extension sees
      the upload's own extension. */
  function StoredName(original: string, token: string): (r: string)
    requires IsToken(token)
    ensures SplitExt(r) == (SplitExt(original).0 + "_" + token, StoredExt(original))
    ensures Extension(r) == Lower(StoredExt(original))
  {
    var base := SplitExt(original).0;
    assert forall i :: 0 <= i < |token| ==> token[i] != '.' && token[i] != '/';
    SplitExtOfTagged(base, token, StoredExt(original));
    base + "_" + token + StoredExt(original)
  }

  /** `download_cleaned_file` naming as written: the stem is cut at its
      FIRST underscore. */
  function DownloadNameAsWritten(fileId: string): (r: string)
    ensures var (base, ext) := SplitExt(fileId);
            r == "cleaned_" + BeforeFirst(base, '_') + ext
  {
    var (base, ext) := SplitExt(fileId);
    var cleaned := if '_' in base then BeforeFirst(base, '_') else base;
    "cleaned_" + cleaned + ext
  }

  /** The download name with only the token suffix removed: the stem is cut
      at its LAST underscore. A name whose stem holds no underscore downloads
      as `cleaned_` followed by the whole name. */
  function DownloadName(fileId: string): (r: string)
    ensures HasPrefix(r, "cleaned_")
    ensures '_' !in SplitExt(fileId).0 ==> r == "cleaned_" + fileId
  {
    var (base, ext) := SplitExt(fileId);
    "cleaned_" + BeforeLast(base, '_') + ext
  }

  /** Round trip: a stored upload downloads under its original stem and its
      stored extension, whatever underscores the stem holds. */
  lemma DownloadNameOfStored(original: string, token: string)
    requires IsToken(token)
    ensures DownloadName(StoredName(original, token)) == "cleaned_" + SplitExt(original).0 + StoredExt(original)
  {
    var base := SplitExt(original).0;
    assert SplitExt(StoredName(original, token)) == (base + "_" + token, StoredExt(original));
    BeforeLastOfTagged(base, token);
  }

  /** Cutting a token-tagged stem at its last underscore gives back the stem:
      the token holds no underscore. */
  lemma BeforeLastOfTagged(base: string, token: string)
    requires IsToken(token)
    ensures BeforeLast(base + "_" + token, '_') == base
  {
    var tagged := base + "_" + token;
    assert tagged[|base|] == '_';
    assert forall j :: |base| < j < |tagged| ==> tagged[j] == token[j - |base| - 1];
    LastIndexOfAt(tagged, '_', |base|);
    assert tagged[..|base|] == base;
  }

  /** The stored name of an upload with a known extension downloads as
      `cleaned_` followed by the original file name. */
  lemma DownloadRestoresOriginal(original: string, token: string)
    requires IsToken(token)
    requires SplitExt(original).1 != []
    ensures DownloadName(StoredName(original, token)) == "cleaned_" + original
  {
    DownloadNameOfStored(original, token);
    var split := SplitExt(original);
    Regroup("cleaned_", split.0, split.1);
  }

  lemma Regroup(x: string, y: string, z: string)
    ensures x + y + z == x + (y + z)
  {
  }

  lemma SplitOfExample()
    ensures SplitExt("my_report.docx") == ("my_report", ".docx")
  {
    var original := "my_report.docx";
    LastIndexOfAbsent(original, '/');
    LastIndexOfAt(original, '.', 9);
    assert original[0] != '.';
    assert original[..9] == "my_report" && original[9..] == ".docx";
  }

  lemma StoredExample()
    ensures StoredName("my_report.docx", "0a1b2c3d") == "my_report_0a1b2c3d.docx"
    ensures SplitExt("my_report_0a1b2c3d.docx") == ("my_report_0a1b2c3d", ".docx")
  {
    SplitOfExample();
    assert "my_report" + "_" + "0a1b2c3d" == "my_report_0a1b2c3d";
    assert "my_report_0a1b2c3d" + ".docx" == "my_report_0a1b2c3d.docx";
  }

  lemma {:induction false} BeforeFirstAppend(a: string, b: string, ch: char)
    requires ch in a
    ensures BeforeFirst(a + b, ch) == BeforeFirst(a, ch)
  {
    assert (a + b)[0] == a[0];
    if a[0] != ch {
      assert (a + b)[1..] == a[1..] + b;
      BeforeFirstAppend(a[1..], b, ch);
    }
  }

  /** The name rule as written, on any upload whose stem holds an
      underscore: the download name keeps only the stem's text before its
      first underscore, and so differs from the name the corrected rule
      restores. `my_report.docx`, stored as `my_report_0a1b2c3d.docx`,
      downloads as `cleaned_my.docx`. */
  lemma FirstUnderscoreTruncates(original: string, token: string)
    requires IsToken(token)
    requires '_' in SplitExt(original).0
    ensures DownloadNameAsWritten(StoredName(original, token)) ==
              "cleaned_" + BeforeFirst(SplitExt(original).0, '_') + StoredExt(original)
    ensures DownloadNameAsWritten(StoredName(original, token)) != DownloadName(StoredName(original, token))
  {
    var base := SplitExt(original).0;
    AsWrittenOfStored(original, token);
    DownloadNameOfStored(original, token);
    BeforeFirstShorter(base, '_');
    LengthsDiffer("cleaned_", BeforeFirst(base, '_'), base, StoredExt(original));
  }

  /** The rule as written, applied to a stored name. */
  lemma AsWrittenOfStored(original: string, token: string)
    requires IsToken(token)
    requires '_' in SplitExt(original).0
    ensures DownloadNameAsWritten(StoredName(original, token)) ==
              "cleaned_" + BeforeFirst(SplitExt(original).0, '_') + StoredExt(original)
  {
    var base := SplitExt(original).0;
    assert SplitExt(StoredName(original, token)) == (base + "_" + token, StoredExt(original));
    Regroup(base, "_", token);
    BeforeFirstAppend(base, "_" + token, '_');
  }

  lemma BeforeFirstShorter(s: string, ch: char)
    requires ch in s
    ensures |BeforeFirst(s, ch)| < |s|
  {
  }

  lemma LengthsDiffer(x: string, y: string, z: string, w: string)
    requires |y| != |z|
    ensures x + y + w != x + z + w
  {
    assert |x + y + w| != |x + z + w|;
  }

  /** On a stem without underscores the two rules agree. */
  lemma RulesAgreeWithoutUnderscore(fileId: string)
    requires '_' !in SplitExt(fileId).0
    ensures DownloadNameAsWritten(fileId) == DownloadName(fileId)
  {
  }
}

=== FILE: outcomes.dfy ===
/** Optional values, results, and the failures the metadata editor can raise. */
module Outcomes {

  /** A value that may be absent, as a lookup that can miss returns it. */
  datatype Option<+T> = None | Some(value: T)

  /** The outcome of an operation that raises instead of returning on failure.
      Usable with `:-`, so that the first failure aborts the rest of the operation. */
  datatype Result<+T, +E> = Ok(value: T) | Err(error: E) {

    predicate IsFailure() {
      Err?
    }

    function PropagateFailure<U>(): Result<U, E>
      requires Err?
    {
      Err(error)
    }

    function Extract(): T
      requires Ok?
    {
      value
    }
  }

  /** The exceptions that escape the editor's operations. */
  datatype Error =
    /** `ValueError("Unsupported file type: <ext>")` from the extension guard. */
    | UnsupportedFileType(ext: string)
    /** Opening a path that holds no file. */
    | FileNotFound(path: string)
    /** Opening, as a ZIP package, a file that is not one. */
    | BadZipFile(path: string)
    /** A property part whose XML does not parse. */
    | MalformedPart(path: string)
    /** `root.remove(prop)` on a matching custom property that is not a direct
        child of the root: the list removal raises `ValueError`. */
    | PropertyNotDirectChild
    /** A failure reported by the external metadata tool used for files that
        are not office packages. */
    | ToolFailed(message: string)
}

=== FILE: parts.dfy ===
/** The three document-property parts of an OOXML package, where they live in
    the package, and how their keys are spelled. */
module Parts {
  import opened Outcomes
  import opened Strings

  datatype Part = Core | App | Custom

  /** The key of `_parts`. */
  function PartName(p: Part): string {
    match p
    case Core => "core"
    case App => "app"
    case Custom => "custom"
  }

  /** The value of `_parts`: the entry that holds the part. */
  function PartPath(p: Part): string {
    match p
    case Core => "docProps/core.xml"
    case App => "docProps/app.xml"
    case Custom => "docProps/custom.xml"
  }

  /** `item.filename in _parts.values()` followed by the search for the part
      whose path it is. */
  function PartOfPath(name: string): (r: Option<Part>)
    ensures r.Some? ==> PartPath(r.value) == name
    ensures r.None? ==> forall p :: PartPath(p) != name
  {
    if name == PartPath(Core) then Some(Core)
    else if name == PartPath(App) then Some(App)
    else if name == PartPath(Custom) then Some(Custom)
    else None
  }

  /** A property key `"<part>:<name>"`. */
  function Key(p: Part, name: string): string {
    PartName(p) + ":" + name
  }

  /** The prefix every key of part `p` starts with. */
  function KeyPrefix(p: Part): string {
    PartName(p) + ":"
  }

  /** Recovering the part from its path gives back that part, so the path table
      is injective and every path names exactly one part. */
  lemma PartOfPathInverse(p: Part)
    ensures PartOfPath(PartPath(p)) == Some(p)
  {
    match p
    case Core =>
    case App =>
      assert PartPath(App)[9] != PartPath(Core)[9];
    case Custom =>
      assert PartPath(Custom)[10] != PartPath(Core)[10];
      assert PartPath(Custom)[9] != PartPath(App)[9];
  }

  /** A key begins with its part's prefix, and with no other part's prefix:
      keys of different parts never collide. */
  lemma KeyPrefixes(p: Part, q: Part, name: string)
    ensures HasPrefix(Key(p, name), KeyPrefix(p))
    ensures HasPrefix(Key(p, name), KeyPrefix(q)) <==> p == q
  {
    var k := Key(p, name);
    assert k[..|KeyPrefix(p)|] == KeyPrefix(p);
    if HasPrefix(k, KeyPrefix(q)) {
      assert k[..|KeyPrefix(q)|] == KeyPrefix(q);
      assert k[0] == KeyPrefix(q)[0] && k[1] == KeyPrefix(q)[1];
      assert k[0] == KeyPrefix(p)[0] && k[1] == KeyPrefix(p)[1];
    }
  }

  lemma {:induction false} KeysOfDistinctPartsDiffer(p: Part, q: Part, x: string, y: string)
    requires p != q
    ensures Key(p, x) != Key(q, y)
  {
    KeyPrefixes(p, q, x);
    KeyPrefixes(q, q, y);
  }
}

=== FILE: property_codec.dfy ===
/** The per-part branch of the read and delete loops: core and app parts are
    handled child by child, the custom part property by property. */
module PropertyCodec {
  import opened Outcomes
  import opened Strings
  import opened Xml
  import opened Parts
  import opened KeyValues
  import CoreAppProperties
  import CustomProperties

  /** The keys and values one part contributes to the metadata dict. Every key
      carries the part's prefix, so parts never collide. */
  function PartMetadata(p: Part, root: Element): (m: map<string, string>)
    ensures forall k :: k in m ==> HasPrefix(k, KeyPrefix(p))
  {
    if p == Custom then
      var m := CustomProperties.Read(root);
      assert forall k :: k in m ==> HasPrefix(k, KeyPrefix(p)) by {
        forall k | k in m ensures HasPrefix(k, KeyPrefix(p)) {
          var d :| d in Descendants(root) && CustomProperties.IsProperty(d) && CustomProperties.PropertyKey(d) == k;
          KeyPrefixes(Custom, Custom, if "name" in d.attrs then d.attrs["name"] else "None");
        }
      }
      m
    else
      var m := CoreAppProperties.Read(p, root);
      assert forall k :: k in m ==> HasPrefix(k, KeyPrefix(p)) by {
        forall k | k in m ensures HasPrefix(k, KeyPrefix(p)) {
          var i :| 0 <= i < |root.children| && CoreAppProperties.ChildKey(p, root.children[i]) == k;
          KeyPrefixes(p, p, LocalName(root.children[i].tag));
        }
      }
      m
  }

  /** The tree the delete loop leaves for one part, or the error it raises. */
  function DeletePart(p: Part, root: Element, fields: seq<string>): (r: Result<Element, Error>)
    ensures p != Custom ==> r.Ok?
    ensures r.Ok? ==> r.value.tag == root.tag && r.value.attrs == root.attrs && r.value.text == root.text
    ensures r.Ok? ==> forall c :: c in r.value.children ==> c in root.children
  {
    if p == Custom then CustomProperties.Delete(root, fields)
    else Ok(CoreAppProperties.Delete(p, root, fields))
  }

  /** The parts whose read-after-delete law holds: core and app always, the
      custom part when no property is nested in a property child of the root. */
  predicate DeleteReadable(p: Part, root: Element) {
    p == Custom ==> CustomProperties.Flat(root)
  }

  /** Read after delete, for one part: the listed keys are gone and every other
      key keeps its value. */
  lemma ReadAfterDeletePart(p: Part, root: Element, fields: seq<string>)
    requires DeletePart(p, root, fields).Ok?
    requires DeleteReadable(p, root)
    ensures PartMetadata(p, DeletePart(p, root, fields).value) == PartMetadata(p, root) - KeySet(fields)
  {
    if p == Custom {
      CustomProperties.ReadAfterDelete(root, fields);
    } else {
      CoreAppProperties.ReadAfterDelete(p, root, fields);
    }
  }

  /** Deleting the same list twice gives the tree deleting it once gave. */
  lemma DeletePartIdempotent(p: Part, root: Element, fields: seq<string>)
    requires DeletePart(p, root, fields).Ok?
    ensures DeletePart(p, DeletePart(p, root, fields).value, fields) == DeletePart(p, root, fields)
  {
    if p == Custom {
      CustomProperties.DeleteIdempotent(root, fields);
    } else {
      CoreAppProperties.DeleteIdempotent(p, root, fields);
    }
  }

  /** Deleting keys the part does not hold leaves the tree as it was; the bytes
      are still rewritten by the serializer. */
  lemma DeletePartAbsentKeys(p: Part, root: Element, fields: seq<string>)
    requires forall k :: k in fields ==> k !in PartMetadata(p, root)
    ensures DeletePart(p, root, fields) == Ok(root)
  {
    if p == Custom {
      CustomProperties.DeleteAbsentKeys(root, fields);
    } else {
      CoreAppProperties.DeleteAbsentKeys(p, root, fields);
    }
  }

  /** Deleting keeps a tree canonical: it only drops children. */
  lemma DeletePartCanonical(p: Part, root: Element, fields: seq<string>)
    requires Canonical(root)
    requires DeletePart(p, root, fields).Ok?
    ensures Canonical(DeletePart(p, root, fields).value)
  {
  }
}

=== FILE: pypath.dfy ===
/** The POSIX `os.path` rules the editor and the web layer use on file names. */
module PyPath {
  import opened Strings

  /** An extension as `SplitExt` produces it: a dot followed by characters that
      are neither dots nor path separators. */
  predicate IsExt(e: string) {
    |e| >= 1 && e[0] == '.' && forall j :: 1 <= j < |e| ==> e[j] != '.' && e[j] != '/'
  }

  /** `p` has an extension starting at position `d`: from `d` on, `p` is a
      dot followed by neither dots nor separators, and some character of the
      last path component before `d` is not a dot. */
  predicate ExtAt(p: string, d: int) {
    0 <= d < |p| && IsExt(p[d..]) &&
    exists k :: 0 <= k < d && p[k] != '.' && forall j :: k <= j < d ==> p[j] != '/'
  }

  /** `os.path.splitext(p)`: the extension starts at the last dot of the last
      path component, unless everything before that dot in the component is
      dots (a leading-dot name such as `.bashrc` has no extension). */
  function SplitExt(p: string): (r: (string, string))
    ensures r.0 + r.1 == p
    ensures r.1 == [] || IsExt(r.1)
    ensures r.1 != [] ==> ExtAt(p, |r.0|)
    ensures r.1 == [] ==> forall d :: !ExtAt(p, d)
  {
    var sep := LastIndexOf(p, '/');
    var dot := LastIndexOf(p, '.');
    if dot > sep && exists k :: sep + 1 <= k < dot && p[k] != '.' then
      assert p[..dot] + p[dot..] == p;
      assert ExtAt(p, dot) by {
        var k :| sep + 1 <= k < dot && p[k] != '.';
        assert forall j :: k <= j < dot ==> p[j] != '/';
      }
      (p[..dot], p[dot..])
    else
      assert forall d :: !ExtAt(p, d) by {
        forall d | ExtAt(p, d) ensures false {
          NoExtension(p, sep, dot, d);
        }
      }
      (p, [])
  }

  /** An extension at `d` makes `d` the last dot, after the last separator,
      with a non-dot character between them. */
  lemma NoExtension(p: string, sep: int, dot: int, d: int)
    requires sep == LastIndexOf(p, '/') && dot == LastIndexOf(p, '.')
    requires ExtAt(p, d)
    ensures dot == d && dot > sep && exists k :: sep + 1 <= k < dot && p[k] != '.'
  {
    assert forall j :: d < j < |p| ==> p[j] == p[d..][j - d];
    LastIndexOfAt(p, '.', d);
    var k :| 0 <= k < d && p[k] != '.' && forall j :: k <= j < d ==> p[j] != '/';
    assert p[d] == '.';
    assert sep < k;
  }

  /** At most one position starts an extension: it is the last dot of `p`. */
  lemma ExtAtUnique(p: string, d: int, e: int)
    requires ExtAt(p, d) && ExtAt(p, e)
    ensures d == e
  {
    NoExtension(p, LastIndexOf(p, '/'), LastIndexOf(p, '.'), d);
    NoExtension(p, LastIndexOf(p, '/'), LastIndexOf(p, '.'), e);
  }

  /** The contract of `SplitExt` determines it: any split of `p` into a stem
      and an empty or `ExtAt`-placed extension, as the rule describes, is the
      one `SplitExt` returns. */
  lemma {:induction false} SplitExtDetermined(p: string, stem: string, ext: string)
    requires stem + ext == p
    requires ext != [] ==> ExtAt(p, |stem|)
    requires ext == [] ==> forall d :: !ExtAt(p, d)
    ensures SplitExt(p) == (stem, ext)
  {
    var r := SplitExt(p);
    if ext != [] {
      assert r.1 != [];
      ExtAtUnique(p, |stem|, |r.0|);
      assert stem == p[..|stem|] == r.0;
    } else {
      assert !ExtAt(p, |r.0|);
      assert r.0 == p == stem;
    }
  }

  /** `os.path.splitext(p)[1].lower()`, the extension every dispatch compares:
      empty when `p` has no extension, and otherwise the lower-cased tail of
      `p` from the extension's dot. */
  function Extension(p: string): (r: string)
    ensures r == [] || IsExt(r)
    ensures r == [] <==> forall d :: !ExtAt(p, d)
    ensures r != [] ==> ExtAt(p, |p| - |r|)
    ensures r != [] ==> forall i :: 0 <= i < |r| ==> r[i] == LowerChar(p[|p| - |r| + i])
  {
    var split := SplitExt(p);
    LowerTail(p, split.0, split.1);
    Lower(split.1)
  }

  /** Lower-casing a tail of `p` that is an extension keeps it one, and
      lowers each character of `p` it covers. */
  lemma LowerTail(p: string, stem: string, ext: string)
    requires stem + ext == p
    requires ext == [] || IsExt(ext)
    ensures Lower(ext) == [] || IsExt(Lower(ext))
    ensures forall i :: 0 <= i < |ext| ==> Lower(ext)[i] == LowerChar(p[|stem| + i])
  {
    assert forall i :: 0 <= i < |ext| ==> ext[i] == p[|stem| + i];
  }

  /** `os.path.join(dir, name)`: an absolute `name` replaces `dir`. */
  function Join(dir: string, name: string): (r: string)
    ensures HasPrefix(name, "/") ==> r == name
    ensures !HasPrefix(name, "/") && |dir| > 0 && dir[|dir| - 1] != '/' ==> r == dir + "/" + name
    ensures !HasPrefix(name, "/") && (|dir| == 0 || dir[|dir| - 1] == '/') ==> r == dir + name
  {
    if HasPrefix(name, "/") then name
    else if |dir| == 0 || dir[|dir| - 1] == '/' then dir + name
    else dir + "/" + name
  }

  /** `os.path.basename(os.path.join(dir, name)) == name` for a name without
      a slash: joining puts the name in a component of its own. */
  lemma JoinBaseName(dir: string, name: string)
    requires '/' !in name
    ensures AfterLast(Join(dir, name), '/') == name
  {
    if |dir| == 0 || dir[|dir| - 1] == '/' {
      AfterLastOfSeparated(dir, name, '/');
    } else {
      AfterLastOfSeparated(dir + "/", name, '/');
      assert dir + "/" + name == (dir + "/") + name;
    }
  }


  /** A name made of a stem, an underscore, a token free of dots and slashes,
      and an extension splits exactly before that extension, whatever the stem
      holds: the underscore is the non-dot character the rule needs. */
  lemma {:induction false} SplitExtOfTagged(stem: string, token: string, ext: string)
    requires IsExt(ext)
    requires '.' !in token && '/' !in token
    ensures SplitExt(stem + "_" + token + ext) == (stem + "_" + token, ext)
  {
    var p := stem + "_" + token + ext;
    var dot := |stem| + 1 + |token|;
    assert p[dot] == '.';
    forall j | dot < j < |p| ensures p[j] != '.' && p[j] != '/' {
      assert p[j] == ext[j - dot];
    }
    LastIndexOfAt(p, '.', dot);
    assert p[|stem|] == '_';
    var sep := LastIndexOf(p, '/');
    forall j | |stem| <= j <= dot ensures p[j] != '/' {
      if j == |stem| {
      } else if j < dot {
        assert p[j] == token[j - |stem| - 1];
      }
    }
    assert sep < |stem|;
    assert sep + 1 <= |stem| < dot && p[|stem|] != '.';
    assert p[..dot] == stem + "_" + token;
    assert p[dot..] == ext;
  }
}

=== FILE: selection.dfy ===
/** Which metadata entries the web layer offers for selective deletion: the
    keys `meta.json` allows for the file's extension group, plus every `EXIF:`
    key of an image. */
module Selection {
  import opened Strings
  import PyPath

  const JpegGroup: string := "JPEG/HEIC/TIFF"
  const ExifPrefix: string := "EXIF:"

  /** `EXTENSION_GROUPS` of the web application. */
  const AppGroups: map<string, string> := map[
    ".jpg" := JpegGroup, ".jpeg" := JpegGroup, ".heic" := JpegGroup,
    ".tiff" := JpegGroup, ".tif" := JpegGroup,
    ".png" := "PNG", ".pdf" := "PDF",
    ".docx" := "DOCX/XLSX", ".xlsx" := "DOCX/XLSX",
    ".mp4" := "MP4/MOV", ".mov" := "MP4/MOV", ".mp3" := "MP3"]

  /** `EXTENSION_GROUPS` of the filtering script: the office group also
      covers `.pptx` and carries another name. */
  const ScriptGroups: map<string, string> := map[
    ".jpg" := JpegGroup, ".jpeg" := JpegGroup, ".heic" := JpegGroup,
    ".tiff" := JpegGroup, ".tif" := JpegGroup,
    ".png" := "PNG", ".pdf" := "PDF",
    ".docx" := "DOCX/XLSX/PPTX", ".xlsx" := "DOCX/XLSX/PPTX", ".pptx" := "DOCX/XLSX/PPTX",
    ".mp4" := "MP4/MOV", ".mov" := "MP4/MOV", ".mp3" := "MP3"]

  /** The contents of `meta.json`: for each group, the keys it allows. */
  type Mapping = map<string, seq<string>>

  /** `set(metadata_mapping.get(group, []))`. */
  predicate Configured(mapping: Mapping, group: string, k: string) {
    group in mapping && k in mapping[group]
  }

  /** The keys a file of `group` may offer, given its extracted metadata: the
      configured ones, and for an image every `EXIF:` key it has. */
  function Allowed<V>(group: string, full: map<string, V>, mapping: Mapping): (r: set<string>)
    ensures forall k :: k in r <==>
              Configured(mapping, group, k) || (group == JpegGroup && k in full && HasPrefix(k, ExifPrefix))
  {
    var configured := if group in mapping then set k | k in mapping[group] else {};
    if group == JpegGroup then configured + set k | k in full && HasPrefix(k, ExifPrefix)
    else configured
  }

  /** `{k: v for k, v in metadata.items() if k in allowed}`. */
  function Pick<V>(full: map<string, V>, allowed: set<string>): (r: map<string, V>)
    ensures forall k :: k in r <==> k in full && k in allowed
    ensures forall k :: k in r ==> r[k] == full[k]
  {
    map k | k in full && k in allowed :: full[k]
  }

  /** `selectable` of `view_metadata` for a file with extension `suffix` and
      extracted `metadata`: a sub-map of `metadata` restricted to what its
      group allows, and empty for an extension with no group. */
  function Selectable<V>(suffix: string, metadata: map<string, V>, mapping: Mapping): (r: map<string, V>)
    ensures forall k :: k in r ==> k in metadata && r[k] == metadata[k]
    ensures Lower(suffix) !in AppGroups ==> r == map[]
    ensures Lower(suffix) in AppGroups ==> forall k :: k in metadata ==>
              (k in r <==> k in Allowed(AppGroups[Lower(suffix)], metadata, mapping))
  {
    var group := Lower(suffix);
    if group !in AppGroups then map[]
    else Pick(metadata, Allowed(AppGroups[group], metadata, mapping))
  }

  /** `filter_metadata(path)`, with the metadata extraction passed in: an
      extension with no group yields `{}` before anything is extracted. */
  function FilterMetadata<V>(path: string, extract: string -> map<string, V>, mapping: Mapping): (r: map<string, V>)
    ensures PyPath.Extension(path) !in ScriptGroups ==> r == map[]
    ensures forall k :: k in r ==> k in extract(path) && r[k] == extract(path)[k]
    ensures PyPath.Extension(path) in ScriptGroups ==> forall k :: k in extract(path) ==>
              (k in r <==> k in Allowed(ScriptGroups[PyPath.Extension(path)], extract(path), mapping))
  {
    var ext := PyPath.Extension(path);
    if ext !in ScriptGroups then map[]
    else
      var full := extract(path);
      Pick(full, Allowed(ScriptGroups[ext], full, mapping))
  }

  /** Every `EXIF:` key of an image file is selectable, whatever `meta.json`
      says. */
  lemma ExifKeysSelectable<V>(suffix: string, metadata: map<string, V>, mapping: Mapping, k: string)
    requires Lower(suffix) in AppGroups && AppGroups[Lower(suffix)] == JpegGroup
    requires k in metadata && HasPrefix(k, ExifPrefix)
    ensures k in Selectable(suffix, metadata, mapping) && Selectable(suffix, metadata, mapping)[k] == metadata[k]
  {
  }

  /** Outside the image group, an `EXIF:` key is selectable only when
      `meta.json` lists it. */
  lemma ExifOnlyForImages<V>(suffix: string, metadata: map<string, V>, mapping: Mapping, k: string)
    requires Lower(suffix) in AppGroups && AppGroups[Lower(suffix)] != JpegGroup
    ensures k in Selectable(suffix, metadata, mapping) <==> k in metadata && Configured(mapping, AppGroups[Lower(suffix)], k)
  {
  }

  /** Selecting from a selection changes nothing. */
  lemma SelectableIdempotent<V>(suffix: string, metadata: map<string, V>, mapping: Mapping)
    ensures Selectable(suffix, Selectable(suffix, metadata, mapping), mapping) == Selectable(suffix, metadata, mapping)
  {
    var once := Selectable(suffix, metadata, mapping);
    var twice := Selectable(suffix, once, mapping);
    if Lower(suffix) in AppGroups {
      var group := AppGroups[Lower(suffix)];
      forall k ensures k in twice <==> k in once {
        if k in once {
          assert k in Allowed(group, metadata, mapping);
          assert k in Allowed(group, once, mapping);
        }
      }
    }
  }

  lemma LowerTwice(s: string)
    ensures Lower(Lower(s)) == Lower(s)
  {
    assert forall i :: 0 <= i < |s| ==> LowerChar(LowerChar(s[i])) == LowerChar(s[i]);
  }

  /** The script's filter and the application's selectable filter agree on
      every extension whose group both tables name alike, that is on every
      extension outside the office group. */
  lemma FilterAgreesWithSelectable<V>(path: string, extract: string -> map<string, V>, mapping: Mapping)
    requires PyPath.Extension(path) !in {".docx", ".xlsx", ".pptx"}
    ensures FilterMetadata(path, extract, mapping) == Selectable(PyPath.SplitExt(path).1, extract(path), mapping)
  {
    var ext := PyPath.Extension(path);
    LowerTwice(PyPath.SplitExt(path).1);
    assert Lower(PyPath.SplitExt(path).1) == ext;
    GroupsAgree(ext);
  }

  /** Outside the office group both tables give an extension the same group,
      or none. */
  lemma GroupsAgree(ext: string)
    requires ext !in {".docx", ".xlsx", ".pptx"}
    ensures ext in ScriptGroups <==> ext in AppGroups
    ensures ext in AppGroups ==> ScriptGroups[ext] == AppGroups[ext]
  {
  }

  /** The three office extensions share one group in the script's table, and
      no other extension belongs to it. */
  lemma OfficeExtensionsShareGroup(ext: string)
    ensures ext in ScriptGroups && ScriptGroups[ext] == "DOCX/XLSX/PPTX" <==> ext in {".docx", ".xlsx", ".pptx"}
  {
  }
}

=== FILE: strings.dfy ===
/** Character-level string helpers shared by the XML tag rules and the file-name rules. */
module Strings {

  predicate HasPrefix(s: string, p: string) {
    |p| <= |s| && s[..|p|] == p
  }

  /** `s.rfind(ch)`: the last position of `ch` in `s`, or -1 when there is none. */
  function LastIndexOf(s: string, ch: char): (r: int)
    ensures -1 <= r < |s|
    ensures r >= 0 ==> s[r] == ch
    ensures forall j :: r < j < |s| ==> s[j] != ch
  {
    if |s| == 0 then -1
    else if s[|s| - 1] == ch then |s| - 1
    else LastIndexOf(s[..|s| - 1], ch)
  }

  /** `s.split(ch)[-1]`: the text after the last `ch`, or all of `s` when `ch`
      does not occur. It is the longest suffix of `s` free of `ch`. */
  function AfterLast(s: string, ch: char): (r: string)
    ensures |r| <= |s| && s[|s| - |r|..] == r
    ensures ch !in r
    ensures |r| < |s| ==> s[|s| - |r| - 1] == ch
  {
    s[LastIndexOf(s, ch) + 1..]
  }

  /** After a separator (or at the start), a `ch`-free tail is all `AfterLast` keeps. */
  lemma AfterLastOfSeparated(front: string, tail: string, ch: char)
    requires front == [] || front[|front| - 1] == ch
    requires ch !in tail
    ensures AfterLast(front + tail, ch) == tail
  {
    var s := front + tail;
    var r := AfterLast(s, ch);
    assert |r| >= |tail|;
    if front != [] {
      assert s[|front| - 1] == ch;
      assert forall i :: 0 <= i < |r| ==> r[i] == s[|s| - |r| + i];
    }
    assert s[|s| - |tail|..] == tail;
  }

  /** `s.split(ch)[0]`: the text before the first `ch`, or all of `s` when `ch`
      does not occur. It is the longest prefix of `s` free of `ch`. */
  function BeforeFirst(s: string, ch: char): (r: string)
    ensures |r| <= |s| && s[..|r|] == r
    ensures ch !in r
    ensures |r| < |s| ==> s[|r|] == ch
  {
    if |s| == 0 || s[0] == ch then [] else [s[0]] + BeforeFirst(s[1..], ch)
  }

  /** The text before the last `ch`, or all of `s` when `ch` does not occur. */
  function BeforeLast(s: string, ch: char): (r: string)
    ensures |r| <= |s| && s[..|r|] == r
    ensures ch in s ==> |r| < |s| && s[|r|] == ch && ch !in s[|r| + 1..]
    ensures ch !in s ==> r == s
  {
    var i := LastIndexOf(s, ch);
    if i < 0 then s else s[..i]
  }

  /** The ASCII part of Python's `str.lower()`. */
  function LowerChar(c: char): char {
    if 'A' <= c <= 'Z' then (c as int + 32) as char else c
  }

  function Lower(s: string): (r: string)
    ensures |r| == |s|
    ensures forall i :: 0 <= i < |s| ==> r[i] == LowerChar(s[i])
  {
    seq(|s|, i requires 0 <= i < |s| => LowerChar(s[i]))
  }

  /** The position of the last `ch` in `s` is pinned down by one occurrence
      with none after it. */
  lemma LastIndexOfAt(s: string, ch: char, k: int)
    requires 0 <= k < |s| && s[k] == ch
    requires forall j :: k < j < |s| ==> s[j] != ch
    ensures LastIndexOf(s, ch) == k
  {
  }

  /** When `ch` does not occur in `s`, `LastIndexOf` says so. */
  lemma LastIndexOfAbsent(s: string, ch: char)
    requires ch !in s
    ensures LastIndexOf(s, ch) == -1
  {
  }
}

=== FILE: whole_file_clean.dfy ===
/** The whole-file DOCX clean: copy a package without its property parts,
    keeping every other entry in order. */
module WholeFileClean {
  import opened Outcomes
  import opened Xml
  import opened Parts
  import opened Archive
  import opened Facade

  /** The entry names the clean skips, as written: the custom part is named
      without its `docProps/` folder. */
  const SkipAsWritten: seq<string> := ["docProps/core.xml", "docProps/app.xml", "custom.xml"]

  /** The entry names of the three property parts. */
  const SkipIntended: seq<string> := [PartPath(Core), PartPath(App), PartPath(Custom)]

  /** The names of `ns` not in `skip`, in their order. */
  function KeptNames(ns: seq<string>, skip: seq<string>): (r: seq<string>)
    ensures forall x :: x in r <==> x in ns && x !in skip
    ensures |r| <= |ns|
  {
    if |ns| == 0 then []
    else
      var init := KeptNames(ns[..|ns| - 1], skip);
      var last := ns[|ns| - 1];
      assert ns == ns[..|ns| - 1] + [last];
      if last in skip then init else init + [last]
  }

  /** The copy keeps the order of the names it keeps, and repeats a kept
      name as often as the package does: filtering a concatenation filters
      each half. */
  lemma {:induction false} KeptNamesAppend(a: seq<string>, b: seq<string>, skip: seq<string>)
    ensures KeptNames(a + b, skip) == KeptNames(a, skip) + KeptNames(b, skip)
  {
    if |b| == 0 {
      assert a + b == a;
    } else {
      var init := b[..|b| - 1];
      assert (a + b)[..|a + b| - 1] == a + init;
      assert (a + b)[|a + b| - 1] == b[|b| - 1];
      KeptNamesAppend(a, init, skip);
    }
  }

  /** The entries the copy loop has written after its first `n` passes: each
      entry not skipped, with the bytes `zin.read` returns for its name. */
  function StripPrefix(pkg: Package, skip: seq<string>, n: int): (r: Package)
    requires 0 <= n <= |pkg|
    ensures Names(r) == KeptNames(Names(pkg)[..n], skip)
    ensures forall e :: e in r ==> e.name !in skip && Some(e.data) == Lookup(pkg, e.name)
  {
    if n == 0 then []
    else
      var init := StripPrefix(pkg, skip, n - 1);
      var name := pkg[n - 1].name;
      KeptNamesStep(pkg, skip, n);
      if name in skip then init
      else
        var r := init + [Entry(name, Lookup(pkg, name).value)];
        assert Names(r) == Names(init) + [name];
        r
  }

  /** One more pass of the copy loop keeps the next name or skips it. */
  lemma KeptNamesStep(pkg: Package, skip: seq<string>, n: int)
    requires 0 < n <= |pkg|
    ensures KeptNames(Names(pkg)[..n], skip) ==
              KeptNames(Names(pkg)[..n - 1], skip) + (if pkg[n - 1].name in skip then [] else [pkg[n - 1].name])
  {
    assert Names(pkg)[..n][..n - 1] == Names(pkg)[..n - 1];
  }

  /** The package the clean writes: the names of `pkg` not in `skip`, in
      order, each with the bytes stored under its name. */
  function Strip(pkg: Package, skip: seq<string>): (r: Package)
    ensures Names(r) == KeptNames(Names(pkg), skip)
    ensures forall e :: e in r ==> e.name !in skip && Some(e.data) == Lookup(pkg, e.name)
  {
    assert Names(pkg)[..|pkg|] == Names(pkg);
    StripPrefix(pkg, skip, |pkg|)
  }

  /** Pass `n` of the copy loop appends entry `n` unless its name is skipped. */
  lemma StripStep(pkg: Package, skip: seq<string>, n: int)
    requires 0 <= n < |pkg|
    ensures StripPrefix(pkg, skip, n + 1) ==
              StripPrefix(pkg, skip, n) +
              (if pkg[n].name in skip then [] else [Entry(pkg[n].name, Lookup(pkg, pkg[n].name).value)])
  {
  }

  /** The copy loop of `remove_metadata_docx` and `clean_docx_metadata`. */
  method StripEntries(pkg: Package, skip: seq<string>) returns (out: Package)
    ensures out == Strip(pkg, skip)
  {
    out := [];
    var i := 0;
    while i < |pkg|
      invariant 0 <= i <= |pkg|
      invariant out == StripPrefix(pkg, skip, i)
    {
      var item := pkg[i];
      StripStep(pkg, skip, i);
      if item.name !in skip {
        out := out + [Entry(item.name, Lookup(pkg, item.name).value)];
      }
      i := i + 1;
    }
  }

  /** Reading a name from the copy: a skipped name is gone, any other name
      reads as it did. */
  lemma LookupAfterStrip(pkg: Package, skip: seq<string>, name: string)
    ensures name in skip ==> Lookup(Strip(pkg, skip), name).None?
    ensures name !in skip ==> Lookup(Strip(pkg, skip), name) == Lookup(pkg, name)
  {
    var r := Strip(pkg, skip);
    if Lookup(r, name).Some? {
      var i :| 0 <= i < |r| && r[i] == Entry(name, Lookup(r, name).value) && LastNamed(r, i);
      assert r[i] in r;
    }
  }

  /** With no repeated name, the copy writes the original entries unchanged:
      every entry not skipped keeps its bytes. */
  lemma StripKeepsEntries(pkg: Package, skip: seq<string>)
    requires UniqueNames(pkg)
    ensures forall e :: e in Strip(pkg, skip) ==> e in pkg
  {
    forall e | e in Strip(pkg, skip) ensures e in pkg {
      var i :| 0 <= i < |pkg| && pkg[i] == Entry(e.name, Lookup(pkg, e.name).value) && LastNamed(pkg, i);
    }
  }

  /** As written, the clean leaves the custom part in place: the custom
      properties read from the copy are those of the original, while the
      core and app parts are gone. */
  lemma CustomPropertiesSurvive(c: XmlCodec, pkg: Package)
    ensures ReadPart(c, Strip(pkg, SkipAsWritten), Custom) == ReadPart(c, pkg, Custom)
    ensures ReadPart(c, Strip(pkg, SkipAsWritten), Core) == Ok(map[])
    ensures ReadPart(c, Strip(pkg, SkipAsWritten), App) == Ok(map[])
  {
    assert PartPath(Custom) !in SkipAsWritten;
    LookupAfterStrip(pkg, SkipAsWritten, PartPath(Custom));
    LookupAfterStrip(pkg, SkipAsWritten, PartPath(Core));
    LookupAfterStrip(pkg, SkipAsWritten, PartPath(App));
  }

  /** With the three part names skipped, nothing of the metadata is left:
      the copy reads as an empty dict, whatever the package held. */
  lemma IntendedCleanLeavesNoMetadata(c: XmlCodec, pkg: Package)
    ensures ReadMetadata(c, Strip(pkg, SkipIntended)) == Ok(map[])
  {
    LookupAfterStrip(pkg, SkipIntended, PartPath(Core));
    LookupAfterStrip(pkg, SkipIntended, PartPath(App));
    LookupAfterStrip(pkg, SkipIntended, PartPath(Custom));
  }

  /** `clean_docx_metadata(path)`, with its skip list as written: the whole
      new package is built before the file at `path` is overwritten, no other
      file changes, and the custom part is copied like any other entry. */
  method CleanDocx(store: Store, path: string) returns (r: Result<Store, Error>)
    ensures path !in store ==> r == Err(FileNotFound(path))
    ensures path in store && store[path].OtherFile? ==> r == Err(BadZipFile(path))
    ensures path in store && store[path].ZipFile? ==>
              r == Ok(store[path := ZipFile(Strip(store[path].package, SkipAsWritten))])
  {
    if path !in store {
      return Err(FileNotFound(path));
    }
    if store[path].OtherFile? {
      return Err(BadZipFile(path));
    }
    var cleaned := StripEntries(store[path].package, SkipAsWritten);
    r := Ok(store[path := ZipFile(cleaned)]);
  }
}

=== FILE: xml.dfy ===
/** Raw bytes, as ZIP entries and serialized XML carry them. */
module Octets {
  newtype byte = x: int | 0 <= x < 256
  type Bytes = seq<byte>
}

/** The slice of ElementTree the editor relies on: element trees, tag names in
    `{namespace-uri}local` notation, descendant search, and a parser/serializer
    pair treated as an opaque codec. */
module Xml {
  import opened Outcomes
  import opened Octets
  import opened Strings

  /** An ElementTree element. `tag` is `{uri}local` for a namespaced element and
      plain `local` otherwise; `attrs` is keyed the same way. `text` is `None`
      for an element with no character data. Comments and processing
      instructions are dropped by the parser and never appear. */
  datatype Element = Element(
    tag: string,
    attrs: map<string, string>,
    text: Option<string>,
    children: seq<Element>)

  /** `tag.split('}')[-1]`: the local name of a tag. */
  function LocalName(tag: string): (r: string)
    ensures '}' !in r
    ensures |r| <= |tag| && tag[|tag| - |r|..] == r
    ensures |r| < |tag| ==> tag[|tag| - |r| - 1] == '}'
  {
    AfterLast(tag, '}')
  }

  /** `elem.text or ''`. */
  function TextValue(e: Element): string {
    match e.text
    case Some(t) => t
    case None => ""
  }

  /** Every element of the subtrees of `cs`, in document order (each element
      before its children, siblings left to right). */
  function Forest(cs: seq<Element>): seq<Element>
  {
    if |cs| == 0 then [] else [cs[0]] + Forest(cs[0].children) + Forest(cs[1..])
  }

  /** The elements `root.findall('.//…')` walks: every element strictly below
      `root`, in document order. */
  function Descendants(root: Element): seq<Element> {
    Forest(root.children)
  }

  /** A character XML 1.0 allows in a document (production 2 of XML 1.0). */
  predicate XmlChar(ch: char) {
    var n := ch as int;
    n == 0x9 || n == 0xA || n == 0xD
    || (0x20 <= n <= 0xD7FF) || (0xE000 <= n <= 0xFFFD) || (0x10000 <= n <= 0x10FFFF)
  }

  predicate XmlText(s: string) {
    forall i :: 0 <= i < |s| ==> XmlChar(s[i])
  }

  /** A character that may start an XML name (production 4 of the fifth
      edition of XML 1.0), leaving out the colon that namespaces reserve. */
  predicate NameStartChar(ch: char) {
    var n := ch as int;
    ('A' <= ch <= 'Z') || ('a' <= ch <= 'z') || ch == '_'
    || (0xC0 <= n <= 0xD6) || (0xD8 <= n <= 0xF6) || (0xF8 <= n <= 0x2FF)
    || (0x370 <= n <= 0x37D) || (0x37F <= n <= 0x1FFF) || (0x200C <= n <= 0x200D)
    || (0x2070 <= n <= 0x218F) || (0x2C00 <= n <= 0x2FEF) || (0x3001 <= n <= 0xD7FF)
    || (0xF900 <= n <= 0xFDCF) || (0xFDF0 <= n <= 0xFFFD) || (0x10000 <= n <= 0xEFFFF)
  }

  /** A character that may continue an XML name (production 4a). */
  predicate NameChar(ch: char) {
    var n := ch as int;
    NameStartChar(ch) || ch == '-' || ch == '.' || ('0' <= ch <= '9') || n == 0xB7
    || (0x300 <= n <= 0x36F) || (0x203F <= n <= 0x2040)
  }

  /** An `NCName` of Namespaces in XML 1.0: a non-empty XML name without a colon. */
  predicate NCName(s: string) {
    |s| > 0 && NameStartChar(s[0]) && forall i :: 1 <= i < |s| ==> NameChar(s[i])
  }

  /** The namespace the `xmlns` prefix is bound to; a document may not bind
      it to anything else, so no element or attribute read from one is in it. */
  const XmlnsNamespace := "http://www.w3.org/2000/xmlns/"

  /** A name as the parser spells it: a plain `local`, or `{uri}local` with a
      non-empty uri of XML characters other than the reserved `xmlns` one;
      the local part is an `NCName`. */
  predicate QualifiedName(t: string) {
    var local := LocalName(t);
    && NCName(local)
    && (local == t || (|t| >= |local| + 3 && t[0] == '{' && XmlText(t[1..|t| - |local| - 1])))
    && !HasPrefix(t, "{" + XmlnsNamespace + "}")
  }

  /** An attribute name the parser can report: a namespace declaration
      (`xmlns` or `xmlns:…`) is consumed by the parser and never an attribute. */
  predicate AttributeName(a: string) {
    QualifiedName(a) && a != "xmlns"
  }

  /** A tree as ElementTree's parser builds it: names in the parser's
      `{uri}local` form, attribute values and text made of XML characters, and
      `None`, never the empty string, for an element without character data. */
  predicate Canonical(e: Element) {
    && QualifiedName(e.tag)
    && (forall a :: a in e.attrs ==> AttributeName(a) && XmlText(e.attrs[a]))
    && (e.text.Some? ==> e.text.value != "" && XmlText(e.text.value))
    && forall c :: c in e.children ==> Canonical(c)
  }

  /** A tag without `}` is its own local name. */
  lemma NoBraceLocal(tag: string)
    requires '}' !in tag
    ensures LocalName(tag) == tag
  {
    AfterLastOfSeparated([], tag, '}');
    assert [] + tag == tag;
  }

  /** An element whose text holds a character XML forbids, such as `\0`, is
      not canonical; ElementTree's serializer would write it out unescaped. */
  lemma NotXmlCharText(e: Element, i: nat)
    requires e.text.Some? && i < |e.text.value| && !XmlChar(e.text.value[i])
    ensures !Canonical(e)
  {
  }

  /** A tag without `}` whose character `i` cannot stand there in a name (or
      an empty tag, with `i` zero) is not a name the parser reports, although
      ElementTree's serializer writes it out as it is: `"a b"`, `""` and
      `"{abc"` are such tags. */
  lemma NotNameTag(tag: string, i: nat)
    requires '}' !in tag
    requires i <= |tag|
    requires i == |tag| ==> tag == []
    requires i < |tag| ==> if i == 0 then !NameStartChar(tag[i]) else !NameChar(tag[i])
    ensures !QualifiedName(tag)
  {
    NoBraceLocal(tag);
  }

  /** `ET.fromstring` (None when the bytes are not well-formed XML) and
      `ET.tostring(root, encoding='utf-8', xml_declaration=True)`. */
  datatype XmlCodec = XmlCodec(parse: Bytes -> Option<Element>, serialize: Element -> Bytes)

  /** What the model assumes of the codec: parsing yields canonical trees, and a
      canonical tree survives serializing and parsing again. Namespace prefixes
      may be rewritten on the way, which the `{uri}local` tags do not see.
      Among canonical trees, ElementTree falls short of the second half on one
      kind of text: it writes a carriage return in text as it is, and the
      parser reads it back as a line feed, so a text holding `\r` (parsed from
      `&#13;`) does not survive. Attribute values are not affected: the
      serializer writes `\r`, `\n` and `\t` in them as character references. */
  ghost predicate Lawful(c: XmlCodec) {
    && (forall b :: c.parse(b).Some? ==> Canonical(c.parse(b).value))
    && (forall e :: Canonical(e) ==> c.parse(c.serialize(e)) == Some(e))
  }
}
